=== FILE: README.md ===
# Files client of the bundled generative-AI SDK, modelled in Dafny

The browser extension bundles Google's generative-AI JavaScript SDK. Its
Files client (`GoogleAIFileManager`) uploads, lists, gets and deletes files
through a REST endpoint. Apart from the HTTP exchange itself, the client is
deterministic string building and validation, and that part is modelled
here:

- `parseFileId` turns `files/abc` or `abc` into the path segment `abc`.
  Its prefix test runs before its emptiness test, so `files/` gives the empty
  segment and is not refused. The result is `split("files/")[1]`, so
  `files/a/files/b` gives `a/`.
- `getUploadMetadata` insists on a mime type. It prefixes a bare `name`
  with `files/`, and the test is for any `/`, so `a/b` is kept as it is.
- `getClientHeaders` builds the `x-goog-api-client` value, which ends with
  `genai-js/0.12.0`.
- The `FilesRequestUrl` constructor builds the target from the base, an
  optional `/upload`, the version and `/files`. `appendPath` adds `/<segment>`,
  `appendParam` adds a query pair, and `taskToMethod` gives the HTTP method.
- `uploadFile` frames the metadata JSON and the file bytes as a
  multipart/related body around a boundary token.
- `makeFilesRequest` turns a non-ok response into a fetch error that carries
  the status, and anything `fetch` throws into a plain SDK error. Every SDK
  error message starts with `[GoogleGenerativeAI Error]: `.

Modules: `Wrappers` (Option, Result), `Strings` (the ECMAScript `indexOf`,
`split` with a string separator, `join`, decimal rendering), `Utf8` (the
encoding a `Blob` applies to its string parts), `Errors`, `Requests`,
`FileIds`, `Metadata`, `Multipart`, `Transport` and `FileManager`.

The transport is a function parameter `fetch: HttpRequest -> FetchOutcome`,
standing for the injected `fetchFn`. The boundary token is a parameter. The
file is a byte-sequence parameter. `JSON.stringify({file: metadata})` is a
parameter `serialise`. Error details are carried as their JSON text.

An empty `fileId` raises the base `GoogleGenerativeAIError`
(`lib/generative-ai/dist/files/index.js:323`), not the request-input error,
so `ParseFileId` returns `GenericError`.

## Model

| member | source | states |
|---|---|---|
| Errors.Message | lib/generative-ai/dist/files/index.js:25-29 | every SDK error message is the tag `[GoogleGenerativeAI Error]: ` followed by the constructor argument |
| Errors.MessageInjective | lib/generative-ai/dist/files/index.js:26-28 | the tag can be taken off again: two messages are equal exactly when the constructor arguments are |
| Errors.Status | lib/generative-ai/dist/files/index.js:35-42 | only a fetch error has a status, and it is the status the error was built with |
| Strings.IndexOf | lib/generative-ai/dist/files/index.js:320 | gives the first occurrence of the pattern, and nothing when there is no occurrence |
| Strings.Split | lib/generative-ai/dist/files/index.js:320 | `split` gives at least one piece; joining the pieces with the separator gives the input back; no piece contains the separator; every piece but the last stops where the first separator after its start begins; the first piece is the text before the first occurrence |
| Strings.SplitUnique | lib/generative-ai/dist/files/index.js:320 | any pieces with those properties are exactly the ones `split` returns, so the properties pin every piece, not only the first |
| Strings.NatToString | lib/generative-ai/dist/files/index.js:199 | a status renders as decimal digits with no leading zero |
| Strings.ParseNatToString | lib/generative-ai/dist/files/index.js:199 | reading the rendered digits back gives the number |
| Strings.NatToStringInjective | lib/generative-ai/dist/files/index.js:199 | distinct statuses render differently |
| Utf8.EncodeChar | lib/generative-ai/dist/files/index.js:276 | a character encodes to one to four bytes as section 3 of RFC 3629 lays them out: the length is the shortest for its range (below 0x80, 0x800, 0x10000, or above), so no overlong form; an ASCII character to its own code; otherwise every byte is at least 0x80, the lead byte announces the length, the later bytes are continuation bytes, and decoding the bytes gives the character back |
| Utf8.Encode | lib/generative-ai/dist/files/index.js:276 | the bytes a `Blob` stores for a string part: between one and four bytes per character, and a one-character string encodes to exactly `EncodeChar`'s bytes, which with `Utf8.EncodeConcat` makes it the character-by-character UTF-8 encoding; `Utf8.EncodeOneBytePerChar`, `Utf8.EncodeConcat` and `Utf8.EncodeInjective` characterise it further |
| Utf8.EncodeOneBytePerChar | lib/generative-ai/dist/files/index.js:276 | a string part takes one byte per character exactly when every character is ASCII |
| Utf8.EncodeInjective | lib/generative-ai/dist/files/index.js:276 | distinct strings encode to distinct bytes |
| Utf8.EncodeConcat | lib/generative-ai/dist/files/index.js:276 | encoding the string parts of the Blob distributes over concatenation |
| Utf8.EncodeWithoutCR | lib/generative-ai/dist/files/index.js:276 | a string without a carriage return encodes to bytes without 13 |
| Utf8.EncodeAscii | lib/generative-ai/dist/files/index.js:276 | an ASCII string encodes to its character codes, one byte per character |
| Requests.OrDefault | lib/generative-ai/dist/files/index.js:146-147 | a configured base or version is used when non-empty; when it is absent or empty the default is used |
| Requests.TaskToMethod | lib/generative-ai/dist/files/index.js:134-139 | POST exactly for upload, GET exactly for list and get, DELETE exactly for delete |
| Requests.GetClientHeaders | lib/generative-ai/dist/files/index.js:85-92 | the header always ends with `genai-js/0.12.0` (the constants of lines 72-73); it is `apiClient + " " + "genai-js/0.12.0"` for a non-empty `apiClient` and exactly `genai-js/0.12.0` otherwise |
| Requests.NewRequestUrl | lib/generative-ai/dist/files/index.js:140-154 | the initial target starts with the base, ends with `/<version>/files`, and holds `/upload` right after the base exactly for uploads; it has no query parameters |
| Requests.UploadTargetInsertsSegment | lib/generative-ai/dist/files/index.js:146-152 | list, get and delete share one initial target; the upload target is that target with `/upload` inserted after the base |
| Requests.EmptyOptionsFallBack | lib/generative-ai/dist/files/index.js:66-67 | with no options the target is `https://generativelanguage.googleapis.com/v1beta/files`; an empty base or version counts as absent |
| Requests.AppendPath | lib/generative-ai/dist/files/index.js:155-157 | the path gains `/` and the segment at its end, and nothing else changes |
| Requests.AppendPathsInOrder | lib/generative-ai/dist/files/index.js:155-157 | a series of appends leaves the path followed by every segment, each after a `/`, in call order |
| Requests.AppendPathsCompose | lib/generative-ai/dist/files/index.js:155-157 | two runs of appends equal one run over the concatenated segments |
| Requests.AppendParam | lib/generative-ai/dist/files/index.js:158-160 | the pair goes after all earlier pairs, a repeated key included, and nothing else changes |
| Requests.ToString | lib/generative-ai/dist/files/index.js:161-163 | without parameters the text is the path; with parameters it is the path, then `?`, then the `key=value` texts joined by `&` |
| Requests.QueryReadsBack | lib/generative-ai/dist/files/index.js:158-163 | when no key or value holds `&`, splitting the query text at `&` gives back each pair's text in call order |
| FileIds.ParseFileId | lib/generative-ai/dist/files/index.js:318-327 | fails exactly on the empty id, with the invalid-id error; for a prefixed id the result holds no `files/`; an id without the prefix comes back unchanged |
| FileIds.ParseFileIdBetweenOccurrences | lib/generative-ai/dist/files/index.js:319-321 | for `files/` + `s` the result is `s` up to its first `files/`, the text between the first and second occurrence |
| FileIds.ParseFileIdStripsPrefix | lib/generative-ai/dist/files/index.js:319-321 | `files/` + `s` gives exactly `s` when `s` holds no `files/` |
| FileIds.ParseFileIdTruncatesAtSecondPrefix | lib/generative-ai/dist/files/index.js:320 | `files/` + `s` + `files/` + `t` gives `s`: whatever follows a second prefix is dropped |
| FileIds.ParseFileIdBare | lib/generative-ai/dist/files/index.js:322-326 | a non-empty id without the prefix is returned unchanged |
| FileIds.ParseFileIdEmpty | lib/generative-ai/dist/files/index.js:322-325 | the empty id fails with a message that starts with the tag and `Invalid fileId ` and ends with the hint naming both formats |
| FileIds.ParseFileIdBarePrefix | lib/generative-ai/dist/files/index.js:318-322 | `files/` gives the empty segment without an error, because the prefix test comes first |
| FileIds.ParseFileIdNotIdempotent | lib/generative-ai/dist/files/index.js:318-325 | parsing is not idempotent: the empty segment from `files/` is refused when parsed again |
| Metadata.NormaliseName | lib/generative-ai/dist/files/index.js:344-346 | a name containing `/` is kept, any other name gets `files/` in front, and the result always contains `/` |
| Metadata.UploadName | lib/generative-ai/dist/files/index.js:343-347 | the name field is present exactly when the input's name is non-empty, and it then holds the normalised name |
| Metadata.GetUploadMetadata | lib/generative-ai/dist/files/index.js:335-349 | fails with the request-input error `Must provide a mimeType.` exactly when the mime type is missing or empty; otherwise mime type and display name are copied and the name is normalised |
| Metadata.NormaliseNameIdempotent | lib/generative-ai/dist/files/index.js:344-346 | normalising a normalised name changes nothing |
| Metadata.GetUploadMetadataIdempotent | lib/generative-ai/dist/files/index.js:335-349 | running `getUploadMetadata` on its own output gives that output again |
| Metadata.NormaliseNameKeepsAnySlash | lib/generative-ai/dist/files/index.js:344 | a name is left alone exactly when it contains a `/` anywhere, with or without the `files/` prefix |
| Multipart.PreBlobPart | lib/generative-ai/dist/files/index.js:264-274 | the text before the file starts with the delimiter line and the JSON part's headers, the metadata follows them, then the divider `\r\n--` + boundary + `\r\nContent-Type: ` that opens the file part, and it ends with the mime type and a blank line; every byte is fixed |
| Multipart.PostBlobPart | lib/generative-ai/dist/files/index.js:275 | the closing delimiter repeats the delimiter line that separates the parts (same `\r\n--` and boundary) and ends with `--` |
| Multipart.ContentTypeHeader | lib/generative-ai/dist/files/index.js:260 | the header is `multipart/related; boundary=` followed by the boundary |
| Multipart.Body | lib/generative-ai/dist/files/index.js:264-276 | the body is the encoded text before the file, then the file bytes unchanged, then the encoded closing delimiter |
| Multipart.DecodeBody | lib/generative-ai/dist/files/index.js:264-276 | the body reads back into the UTF-8 encodings of the metadata JSON and the mime type, and the file bytes unchanged, for any file, when the JSON and the mime type hold no carriage return (with `Utf8.EncodeInjective` the encodings determine the texts); the file holds for any content because the reader takes the closing delimiter from the end of the body, whereas a reader stopping at the first `\r\n--` + boundary would cut short a file containing it |
| Multipart.BodyInjective | lib/generative-ai/dist/files/index.js:264-276 | bodies built from metadata and mime types without a carriage return are equal only when the metadata, the mime type and the file are all equal |
| Multipart.FramingAmbiguous | lib/generative-ai/dist/files/index.js:264-275 | nothing escapes the boundary in the metadata: metadata ending with the divider and file headers gives the same body as moving those bytes into the file; the divider holds carriage returns, so the hazard needs metadata text with a raw CR, which `JSON.stringify` never emits |
| Transport.GetSignal | lib/generative-ai/dist/files/index.js:217-224 | an abort is scheduled exactly when a timeout of zero or more is configured, after that many milliseconds; a negative or absent timeout schedules none |
| Transport.GetHeaders | lib/generative-ai/dist/files/index.js:165-170 | two headers: `x-goog-api-client` with the client header value for the target's options, which ends with the SDK tag, then `x-goog-api-key` with the target's API key |
| Transport.BuildRequest | lib/generative-ai/dist/files/index.js:171-182 | `fetch` gets the target's text, the method of its `FilesTask`, the headers and body it was given, and the abort delay from the target's options |
| Transport.MakeFilesRequest | lib/generative-ai/dist/files/index.js:171-213 | `fetch` is called with the built request; the result succeeds exactly when it answered with an ok response, which is returned; every error names the target it was fetching and carries a status exactly when the server answered; a non-ok response gives a fetch error with that response's status, status text, details and text, and a thrown error gives a plain error holding its message (lines 199 and 208) |
| Transport.ServerMessage | lib/generative-ai/dist/files/index.js:186-195 | the server's part of the message is empty for an unusable body; otherwise it is `error.message`, followed by a space and the details' JSON when details exist |
| Transport.Settle | lib/generative-ai/dist/files/index.js:183-212 | success exactly for an ok response, which is returned; a non-ok response gives a fetch error with its status, status text and details, and text `Error fetching from <url>: [<status> <status text>] <server message>`; a thrown error gives a plain error `Error fetching from <url>: <message>` with no status |
| Transport.FetchErrorStatusReadable | lib/generative-ai/dist/files/index.js:199 | the status can be read back from the fetch error's text: it is the digits right after the bracket, followed by a space |
| Transport.ErrorKindsDistinguishable | lib/generative-ai/dist/files/index.js:205-211 | a server error carries a status and a transport error does not, and their texts differ unless the thrown message itself starts with `[` |
| Transport.NotFoundExample | lib/generative-ai/dist/files/index.js:185-199 | a 404 with body message `not found` gives a fetch error with status 404 whose message ends with `] not found` |
| Transport.UnparsableBodyExample | lib/generative-ai/dist/files/index.js:186-199 | a 500 with an unparsable body gives a text built only from the status and status text |
| FileManager.PrepareUpload | lib/generative-ai/dist/files/index.js:254-277 | fails with the request-input error exactly when the mime type is missing or empty; otherwise the upload target, the two usual headers, then `X-Goog-Upload-Protocol: multipart` and the multipart content type, and as body the multipart body of the serialised upload metadata, the mime type and the file |
| FileManager.UploadFile | lib/generative-ai/dist/files/index.js:254-279 | a missing or empty mime type fails with the request-input error before `fetch` is called; otherwise `fetch` gets the prepared POST, and the call succeeds exactly on an ok response, which it returns; any other outcome fails with the error `makeFilesRequest` normalised from it, so a non-ok response's status, status text and details come through unchanged |
| FileManager.PrepareList | lib/generative-ai/dist/files/index.js:283-291 | the list target for the manager's API key and options, with the usual headers and no body; `pageSize` first and `pageToken` last, each present exactly when truthy |
| FileManager.ListFiles | lib/generative-ai/dist/files/index.js:283-294 | `fetch` gets a GET of the prepared list target, and the call succeeds exactly on an ok response, which it returns; any other outcome fails with the error `makeFilesRequest` normalised from it, so a non-ok response's status, status text and details come through unchanged |
| FileManager.PrepareById | lib/generative-ai/dist/files/index.js:298-311 | fails exactly on the empty id; otherwise the target of the given `FilesTask` for the manager's API key and options, followed by `/` and the parsed id, with the usual headers, no body and no parameters |
| FileManager.GetFile | lib/generative-ai/dist/files/index.js:298-304 | an empty id fails with the invalid-id error before `fetch` is called; otherwise `fetch` gets a GET of the file's target, and the call succeeds exactly on an ok response, which it returns; any other outcome fails with the error `makeFilesRequest` normalised from it, so a non-ok response's status, status text and details come through unchanged |
| FileManager.DeleteFile | lib/generative-ai/dist/files/index.js:308-313 | an empty id fails with the invalid-id error before `fetch` is called; otherwise `fetch` gets a DELETE of the file's target, and the call succeeds, with no value, exactly on an ok response; any other outcome fails with the error `makeFilesRequest` normalised from it, so a non-ok response's status, status text and details come through unchanged |
| FileManager.UploadBodyCarriesFile | lib/generative-ai/dist/files/index.js:259-277 | an upload is a POST whose body reads back into the serialised metadata, the mime type and the file bytes, when neither the serialised metadata nor the mime type holds a carriage return |
| FileManager.GetAndDeleteShareTarget | lib/generative-ai/dist/files/index.js:298-313 | get and delete address `…/files/<id>` whether the id comes with or without its prefix, and differ only in method |
| FileManager.EmptyIdNeverSent | lib/generative-ai/dist/files/index.js:298-312 | get and delete of an empty id fail the same way whatever the transport does: no request is sent |
| FileManager.MissingMimeTypeNeverSent | lib/generative-ai/dist/files/index.js:336-338 | an upload without a mime type fails with the request-input error before anything is sent |

## Left out

- The HTTP exchange: `fetch`, the `Headers` object and `response.json()` are foreign runtime APIs. The transport is a function parameter. A response's error body is given as already parsed: unusable, or an `error` object's message and details.
- The `Blob` object itself: the body is modelled as the bytes it would hold.
- `fs.readFileSync` is file I/O. The file is a byte-sequence parameter, and a read failure is not modelled.
- `generateBoundary` uses `Math.random`, so the boundary is a parameter.
- `getSignal`'s `AbortController` and `setTimeout` are timer-based. The request carries the delay after which it would be aborted; the abort itself is not modelled.
- Transport.GetSignal: the timeout is an integer or absent. A `null` timeout, which `>= 0` treats as 0, and non-integer timeouts are not modelled.
- `response.json()` on the success path is a foreign API. `UploadFile`, `ListFiles` and `GetFile` return the ok response instead of its parsed JSON. `DeleteFile` returns no value, as the source does.
- `JSON.stringify` of the metadata and of error details is left out. The metadata text comes from a `serialise` parameter, and details are carried as their JSON text.
- Requests.ToString: the WHATWG `URL` class's parsing, its percent-encoding and the `application/x-www-form-urlencoded` form of `searchParams` are left out. The target is plain concatenation, and pairs are written as `key=value` joined by `&`.
- Requests.AppendPath: the pathname setter's normalisation is left out. It removes dot segments and percent-encodes, so `getFile("..")` targets `…/files/..` here where the source targets the version's directory.
- Requests.NewRequestUrl: `new URL` throwing on an invalid base is not modelled; the base is joined as text.
- `err.stack` is copied onto the wrapping error for debugging. It carries no behaviour.
- JavaScript truthiness outside strings is left out. A present but falsy `error.details` (`null`, `0`, `false`, `""`) is modelled as absent. A non-string `error.message` is not modelled, though a missing one renders as `undefined` as the template does. A non-string `fileId` is not modelled.
- `pageSize` is taken as a non-negative integer. Other numbers are not rendered.
- JavaScript strings are UTF-16 and may hold lone surrogates, which a `Blob` replaces with U+FFFD. Dafny characters are Unicode scalar values, so this case does not arise in the model.
- `background.js` and `script.js` are extension message passing and DOM glue with no logic to state.
- The `FileState` and `Task` enumerations are constants with no behaviour.

=== FILE: errors.dfy ===
/** The SDK's error classes: a base error and its fetch and request-input
    specialisations, as one tagged union. */
module Errors {
  import opened Wrappers
  import opened Strings

  /** Every SDK error's message starts with this tag. */
  const ErrorTag := "[GoogleGenerativeAI Error]: "

  /** `text` is the argument the error was constructed with; the message a
      caller sees is `Message(e)`. */
  datatype SdkError =
    | GenericError(text: string)
      // GoogleGenerativeAIError
    | FetchError(text: string, status: nat, statusText: string, errorDetails: Option<string>)
      // GoogleGenerativeAIFetchError; details held as their JSON text
    | RequestInputError(text: string)
      // GoogleGenerativeAIRequestInputError

  /** The `message` property of the error object. */
  function Message(e: SdkError): (r: string)
    ensures IsPrefix(ErrorTag, r)
    ensures r[|ErrorTag|..] == e.text
  {
    ErrorTag + e.text
  }

  /** The `status` property: only a fetch error has one. */
  function Status(e: SdkError): (r: Option<nat>)
    ensures r.Some? <==> e.FetchError?
    ensures e.FetchError? ==> r == Some(e.status)
  {
    if e.FetchError? then Some(e.status) else None
  }

  /** The tag can be taken off again: messages are equal exactly when the
      constructor arguments are. */
  lemma MessageInjective(a: SdkError, b: SdkError)
    ensures Message(a) == Message(b) <==> a.text == b.text
  {
    if Message(a) == Message(b) {
      assert Message(a)[|ErrorTag|..] == a.text;
    }
  }
}

=== FILE: fileids.dfy ===
/** `parseFileId`: turning a caller's file id (`files/abc` or `abc`) into the
    path segment of a get or delete request. */
module FileIds {
  import opened Wrappers
  import opened Strings
  import opened Errors

  const FilesPrefix := "files/"

  /** The two accepted formats, as the error for an empty id names them. */
  const FormatHint := ". Must be in the format \"files/filename\" or \"filename\""

  /** The text of the error an empty id raises. */
  function InvalidFileIdText(fileId: string): string {
    "Invalid fileId " + fileId + FormatHint
  }

  /** The prefix test runs first and keeps the piece between the first and
      second `files/` (`split("files/")[1]`); only an id without the prefix
      is checked for emptiness, and a non-empty one is kept as it is. */
  function ParseFileId(fileId: string): (r: Result<string, SdkError>)
    ensures r.Failure? <==> fileId == ""
    ensures r.Failure? ==> r.error == GenericError(InvalidFileIdText(fileId))
    ensures r.Success? && IsPrefix(FilesPrefix, fileId) ==> !Contains(r.value, FilesPrefix)
    ensures r.Success? && !IsPrefix(FilesPrefix, fileId) ==> r.value == fileId
  {
    if IsPrefix(FilesPrefix, fileId) then
      Success(Split(fileId, FilesPrefix)[1])
    else if fileId == "" then
      Failure(GenericError(InvalidFileIdText(fileId)))
    else
      Success(fileId)
  }

  /** For an id `files/` + `s`, the result is `s` up to its first `files/`:
      the text between the id's first and second occurrence of the prefix. */
  lemma ParseFileIdBetweenOccurrences(s: string)
    ensures ParseFileId(FilesPrefix + s) == Success(UpToFirst(s, FilesPrefix))
  {
    var id := FilesPrefix + s;
    assert IsPrefix(FilesPrefix, id) by { assert id[..|FilesPrefix|] == FilesPrefix; }
    assert IndexOf(id, FilesPrefix) == Some(0);
    assert id[6..] == s;
    var pieces := Split(id, FilesPrefix);
    assert pieces == [id[..0]] + Split(s, FilesPrefix);
  }

  /** The prefix is stripped exactly when the rest holds no second prefix. */
  lemma ParseFileIdStripsPrefix(s: string)
    requires !Contains(s, FilesPrefix)
    ensures ParseFileId(FilesPrefix + s) == Success(s)
  {
    ParseFileIdBetweenOccurrences(s);
  }

  /** A second prefix cuts the result short: `files/a/files/b` gives `a/`. */
  lemma ParseFileIdTruncatesAtSecondPrefix(s: string, t: string)
    requires !Contains(s, FilesPrefix)
    ensures ParseFileId(FilesPrefix + s + FilesPrefix + t) == Success(s)
  {
    var rest := s + FilesPrefix + t;
    assert FilesPrefix + s + FilesPrefix + t == FilesPrefix + rest;
    ParseFileIdBetweenOccurrences(rest);
    var j := |s|;
    assert rest[j..j + |FilesPrefix|] == FilesPrefix;
    forall k: nat | k < j
      ensures !OccursAt(rest, FilesPrefix, k)
    {
      NoPrefixBefore(s, t, k);
    }
    IndexOfIsFirst(rest, FilesPrefix, j);
    assert rest[..j] == s;
  }

  /** No occurrence of `files/` starts inside `s` when `s` holds none: one
      lying wholly inside `s` would be one of `s`, and one running into the
      following `files/` cannot exist. */
  lemma NoPrefixBefore(s: string, t: string, k: nat)
    requires !Contains(s, FilesPrefix) && k < |s|
    ensures !OccursAt(s + FilesPrefix + t, FilesPrefix, k)
  {
    var rest := s + FilesPrefix + t;
    if k + |FilesPrefix| <= |s| {
      assert rest[..|s|] == s;
      OccursAtPrefix(rest, FilesPrefix, k, |s|);
      assert !OccursAt(s, FilesPrefix, k);
    } else {
      ExcludedStraddle(s, t, k);
    }
  }

  /** No occurrence of `files/` can start inside `s` and run into the
      following `files/`: the only `f` of the prefix is its first letter. */
  lemma ExcludedStraddle(s: string, t: string, k: nat)
    requires k < |s| < k + |FilesPrefix|
    ensures !OccursAt(s + FilesPrefix + t, FilesPrefix, k)
  {
    var rest := s + FilesPrefix + t;
    var d := |s| - k;
    assert rest[|s|] == 'f';
    assert FilesPrefix[d] != 'f';
    if k + |FilesPrefix| <= |rest| {
      assert rest[k..k + |FilesPrefix|][d] == rest[|s|];
    }
  }

  /** A non-empty id without the prefix comes back unchanged. */
  lemma ParseFileIdBare(fileId: string)
    requires fileId != "" && !IsPrefix(FilesPrefix, fileId)
    ensures ParseFileId(fileId) == Success(fileId)
  {
  }

  /** The empty id is refused with a message naming both accepted formats. */
  lemma ParseFileIdEmpty()
    ensures ParseFileId("").Failure?
    ensures var m := Message(ParseFileId("").error);
      IsPrefix(ErrorTag + "Invalid fileId ", m) && IsSuffix(FormatHint, m)
  {
    var m := Message(ParseFileId("").error);
    assert m == ErrorTag + "Invalid fileId " + FormatHint;
    assert m[..|ErrorTag + "Invalid fileId "|] == ErrorTag + "Invalid fileId ";
    assert m[|m| - |FormatHint|..] == FormatHint;
  }

  /** The bare prefix is accepted and yields an empty segment, because the
      emptiness check is never reached for it. */
  lemma ParseFileIdBarePrefix()
    ensures ParseFileId(FilesPrefix) == Success("")
  {
    ParseFileIdStripsPrefix("");
  }

  /** Feeding a result back in is not harmless: the empty segment parsed
      from `files/` is itself refused. */
  lemma ParseFileIdNotIdempotent()
    ensures ParseFileId(FilesPrefix).Success?
    ensures ParseFileId(ParseFileId(FilesPrefix).value).Failure?
  {
    ParseFileIdBarePrefix();
  }
}

=== FILE: manager.dfy ===
/** `GoogleAIFileManager`: the four file operations, each building its target
    and headers and handing them to `makeFilesRequest` with an injected
    transport. */
module FileManager {
  import opened Wrappers
  import opened Strings
  import opened Utf8
  import opened Errors
  import opened Requests
  import opened FileIds
  import opened Metadata
  import opened Multipart
  import opened Transport

  datatype FileManager = FileManager(apiKey: string, options: Option<RequestOptions>)

  /** `listFiles` parameters; an absent field is `undefined`. */
  datatype ListParams = ListParams(pageSize: Option<nat>, pageToken: Option<string>)

  /** A target with its headers and body, ready for `makeFilesRequest`. */
  datatype Prepared = Prepared(url: FilesRequestUrl, headers: seq<Header>, body: Option<seq<byte>>)

  /** The request `fetch` receives for a prepared call. */
  function RequestOf(p: Prepared): HttpRequest {
    BuildRequest(p.url, p.headers, p.body)
  }

  function Send(p: Prepared, fetch: HttpRequest -> FetchOutcome): Result<Response, SdkError> {
    MakeFilesRequest(p.url, p.headers, p.body, fetch)
  }

  /** `r` is what the call yields when `fetch` gave `out`: the response when
      it is ok, an error otherwise. */
  predicate Answers<R>(r: Result<R, SdkError>, out: FetchOutcome) {
    r.Success? <==> out.Responded? && out.response.ok
  }

  /** The upload call before it is sent: the upload target, the usual headers
      plus the multipart ones, and the multipart body. The metadata's JSON
      text comes from `serialise`, standing for `JSON.stringify({file: …})`. */
  function PrepareUpload(m: FileManager, file: seq<byte>, meta: FileMetadata, boundary: string,
    serialise: UploadMetadata -> string): (r: Result<Prepared, SdkError>)
    ensures r.Failure? <==> meta.mimeType.None? || meta.mimeType.value == ""
    ensures r.Failure? ==> r.error == RequestInputError(MissingMimeTypeText)
    ensures r.Success? ==> r.value.url == NewRequestUrl(Upload, m.apiKey, m.options)
    ensures r.Success? ==> (|r.value.headers| == 4 &&
      r.value.headers[..2] == GetHeaders(r.value.url) &&
      r.value.headers[2..] ==
        [("X-Goog-Upload-Protocol", "multipart"), ("Content-Type", ContentTypeHeader(boundary))])
    ensures r.Success? ==> (r.value.body ==
      Some(Body(boundary, serialise(GetUploadMetadata(meta).value), meta.mimeType.value, file)))
  {
    var url := NewRequestUrl(Upload, m.apiKey, m.options);
    var headers := GetHeaders(url) +
      [("X-Goog-Upload-Protocol", "multipart"), ("Content-Type", ContentTypeHeader(boundary))];
    var md :- GetUploadMetadata(meta);
    var body := Body(boundary, serialise(md), meta.mimeType.value, file);
    Success(Prepared(url, headers, Some(body)))
  }

  /** `uploadFile`: the file's bytes are given instead of read from a path.
      A missing mime type fails before `fetch` is called; otherwise `fetch`
      receives the prepared POST, its ok response is the result, and any
      other outcome is the error `makeFilesRequest` normalised from it. */
  function UploadFile(m: FileManager, file: seq<byte>, meta: FileMetadata, boundary: string,
    serialise: UploadMetadata -> string, fetch: HttpRequest -> FetchOutcome): (r: Result<Response, SdkError>)
    ensures meta.mimeType.None? || meta.mimeType.value == "" ==>
      r == Failure(RequestInputError(MissingMimeTypeText))
    ensures meta.mimeType.Some? && meta.mimeType.value != "" ==>
      var req := RequestOf(PrepareUpload(m, file, meta, boundary, serialise).value);
      var out := fetch(req);
      req.verb == Post && Answers(r, out) && (r.Success? ==> r.value == out.response) &&
      (r.Failure? ==> NormalisedError(r.error, req.url, out))
  {
    var p :- PrepareUpload(m, file, meta, boundary, serialise);
    Send(p, fetch)
  }

  /** `listFiles`: a list target with `pageSize` and then `pageToken` as
      query parameters, each only when truthy (non-zero, non-empty). */
  function PrepareList(m: FileManager, params: Option<ListParams>): (r: Prepared)
    ensures r.body.None?
    ensures r.url.task == List && r.url.apiKey == m.apiKey && r.url.options == m.options
    ensures r.headers == GetHeaders(r.url)
    ensures r.url.href == NewRequestUrl(List, m.apiKey, m.options).href
    ensures var size := params.Some? && params.value.pageSize.Some? && params.value.pageSize.value != 0;
      var token := params.Some? && params.value.pageToken.Some? && params.value.pageToken.value != "";
      |r.url.params| == (if size then 1 else 0) + (if token then 1 else 0) &&
      (size ==> r.url.params[0] == ("pageSize", NatToString(params.value.pageSize.value))) &&
      (token ==> r.url.params[|r.url.params| - 1] == ("pageToken", params.value.pageToken.value))
  {
    var u0 := NewRequestUrl(List, m.apiKey, m.options);
    var u1 := if params.Some? && params.value.pageSize.Some? && params.value.pageSize.value != 0
      then AppendParam(u0, "pageSize", NatToString(params.value.pageSize.value)) else u0;
    var u2 := if params.Some? && params.value.pageToken.Some? && params.value.pageToken.value != ""
      then AppendParam(u1, "pageToken", params.value.pageToken.value) else u1;
    Prepared(u2, GetHeaders(u2), None)
  }

  /** `listFiles`: `fetch` receives a GET of the list target, its ok
      response is the result, and any other outcome is the error
      `makeFilesRequest` normalised from it. */
  function ListFiles(m: FileManager, params: Option<ListParams>, fetch: HttpRequest -> FetchOutcome)
    : (r: Result<Response, SdkError>)
    ensures var req := RequestOf(PrepareList(m, params));
      var out := fetch(req);
      req.verb == GetMethod && Answers(r, out) && (r.Success? ==> r.value == out.response) &&
      (r.Failure? ==> NormalisedError(r.error, req.url, out))
  {
    Send(PrepareList(m, params), fetch)
  }

  /** `getFile` and `deleteFile`: the `FilesTask` target with the parsed id as
      one more path segment; an empty id fails before anything is sent. */
  function PrepareById(m: FileManager, task: FilesTask, fileId: string): (r: Result<Prepared, SdkError>)
    ensures r.Failure? <==> fileId == ""
    ensures r.Failure? ==> r.error == GenericError(InvalidFileIdText(fileId))
    ensures r.Success? ==> r.value.body.None? && r.value.url.task == task && r.value.url.params == []
    ensures r.Success? ==> r.value.url.apiKey == m.apiKey && r.value.url.options == m.options
    ensures r.Success? ==> r.value.headers == GetHeaders(r.value.url)
    ensures r.Success? ==> (r.value.url.href ==
      NewRequestUrl(task, m.apiKey, m.options).href + "/" + ParseFileId(fileId).value)
  {
    var url := NewRequestUrl(task, m.apiKey, m.options);
    var id :- ParseFileId(fileId);
    var u := AppendPath(url, id);
    AppendPathAppends(url, id);
    Success(Prepared(u, GetHeaders(u), None))
  }

  /** `getFile`: an empty id fails before `fetch` is called; otherwise
      `fetch` receives a GET of the file's target, its ok response is the
      result, and any other outcome is the error `makeFilesRequest`
      normalised from it. */
  function GetFile(m: FileManager, fileId: string, fetch: HttpRequest -> FetchOutcome): (r: Result<Response, SdkError>)
    ensures fileId == "" ==> r == Failure(GenericError(InvalidFileIdText(fileId)))
    ensures fileId != "" ==>
      var req := RequestOf(PrepareById(m, Get, fileId).value);
      var out := fetch(req);
      req.verb == GetMethod && Answers(r, out) && (r.Success? ==> r.value == out.response) &&
      (r.Failure? ==> NormalisedError(r.error, req.url, out))
  {
    var p :- PrepareById(m, Get, fileId);
    Send(p, fetch)
  }

  /** `deleteFile`: an empty id fails before `fetch` is called; otherwise
      `fetch` receives a DELETE of the file's target, an ok response
      completes the call with no value, and any other outcome is the error
      `makeFilesRequest` normalised from it. */
  function DeleteFile(m: FileManager, fileId: string, fetch: HttpRequest -> FetchOutcome): (r: Result<(), SdkError>)
    ensures fileId == "" ==> r == Failure(GenericError(InvalidFileIdText(fileId)))
    ensures fileId != "" ==>
      var req := RequestOf(PrepareById(m, Delete, fileId).value);
      var out := fetch(req);
      req.verb == DeleteMethod && Answers(r, out) &&
      (r.Failure? ==> NormalisedError(r.error, req.url, out))
  {
    var p :- PrepareById(m, Delete, fileId);
    var _ :- Send(p, fetch);
    Success(())
  }

  /** The upload body carries the file untouched: reading it back gives the
      metadata JSON, the mime type and the file bytes. */
  lemma UploadBodyCarriesFile(m: FileManager, file: seq<byte>, meta: FileMetadata, boundary: string,
    serialise: UploadMetadata -> string)
    requires PrepareUpload(m, file, meta, boundary, serialise).Success?
    requires '\r' !in serialise(GetUploadMetadata(meta).value) && '\r' !in meta.mimeType.value
    ensures var req := RequestOf(PrepareUpload(m, file, meta, boundary, serialise).value);
      req.verb == Post && req.body.Some? &&
      Decode(req.body.value, boundary) ==
        Some(Parts(Encode(serialise(GetUploadMetadata(meta).value)), Encode(meta.mimeType.value), file))
  {
    DecodeBody(boundary, serialise(GetUploadMetadata(meta).value), meta.mimeType.value, file);
  }

  /** Get and delete address the same URL, `…/files/<id>`, for an id given
      with or without its prefix, and differ only in the method. */
  lemma GetAndDeleteShareTarget(m: FileManager, s: string)
    requires s != "" && !IsPrefix(FilesPrefix, s) && !Contains(s, FilesPrefix)
    ensures var g := PrepareById(m, Get, FilesPrefix + s);
      var g' := PrepareById(m, Get, s);
      var d := PrepareById(m, Delete, FilesPrefix + s);
      g.Success? && g'.Success? && d.Success? &&
      RequestOf(g.value).url == RequestOf(g'.value).url == RequestOf(d.value).url ==
        NewRequestUrl(List, m.apiKey, m.options).href + "/" + s &&
      RequestOf(g.value).verb == GetMethod && RequestOf(d.value).verb == DeleteMethod
  {
    ParseFileIdStripsPrefix(s);
    UploadTargetInsertsSegment(m.options, Get);
    UploadTargetInsertsSegment(m.options, Delete);
  }

  /** An empty id fails the same way whatever the transport would do: no
      request reaches it. */
  lemma EmptyIdNeverSent(m: FileManager, f: HttpRequest -> FetchOutcome, g: HttpRequest -> FetchOutcome)
    ensures GetFile(m, "", f) == GetFile(m, "", g) == Failure(GenericError(InvalidFileIdText("")))
    ensures DeleteFile(m, "", f) == DeleteFile(m, "", g) == Failure(GenericError(InvalidFileIdText("")))
  {
  }

  /** A missing mime type fails the upload before anything is sent. */
  lemma MissingMimeTypeNeverSent(m: FileManager, file: seq<byte>, meta: FileMetadata, boundary: string,
    serialise: UploadMetadata -> string, f: HttpRequest -> FetchOutcome)
    requires meta.mimeType.None? || meta.mimeType.value == ""
    ensures UploadFile(m, file, meta, boundary, serialise, f) == Failure(RequestInputError(MissingMimeTypeText))
  {
  }
}

=== FILE: metadata.dfy ===
/** `getUploadMetadata`: checking the caller's file metadata and putting a
    bare resource name into its canonical `files/<name>` form. */
module Metadata {
  import opened Wrappers
  import opened Errors

  /** The caller's `FileMetadata`; an absent field is `undefined`. */
  datatype FileMetadata = FileMetadata(
    mimeType: Option<string>,
    displayName: Option<string>,
    name: Option<string>)

  /** The metadata sent with an upload; `mimeType` is always present. */
  datatype UploadMetadata = UploadMetadata(
    mimeType: string,
    displayName: Option<string>,
    name: Option<string>)

  const MissingMimeTypeText := "Must provide a mimeType."

  /** A name with any `/` is kept as it is; otherwise `files/` goes in front. */
  function NormaliseName(name: string): (r: string)
    ensures '/' in name ==> r == name
    ensures '/' !in name ==> r == "files/" + name
    ensures '/' in r
  {
    if '/' in name then name else
      var r := "files/" + name;
      assert r[5] == '/';
      r
  }

  /** The `name` field: present only when the input's name is non-empty. */
  function UploadName(name: Option<string>): (r: Option<string>)
    ensures r.Some? <==> name.Some? && name.value != ""
    ensures r.Some? ==> r.value == NormaliseName(name.value)
  {
    if name.Some? && name.value != "" then Some(NormaliseName(name.value)) else None
  }

  /** Fails with a request-input error when the mime type is missing or
      empty; otherwise copies mime type and display name and normalises the
      name. */
  function GetUploadMetadata(input: FileMetadata): (r: Result<UploadMetadata, SdkError>)
    ensures r.Failure? <==> input.mimeType.None? || input.mimeType.value == ""
    ensures r.Failure? ==> r.error == RequestInputError(MissingMimeTypeText)
    ensures r.Success? ==> Some(r.value.mimeType) == input.mimeType
    ensures r.Success? ==> r.value.displayName == input.displayName
    ensures r.Success? ==> r.value.name == UploadName(input.name)
  {
    if input.mimeType.None? || input.mimeType.value == "" then
      Failure(RequestInputError(MissingMimeTypeText))
    else
      Success(UploadMetadata(input.mimeType.value, input.displayName, UploadName(input.name)))
  }

  /** Normalising a normalised name changes nothing. */
  lemma NormaliseNameIdempotent(name: string)
    ensures NormaliseName(NormaliseName(name)) == NormaliseName(name)
  {
  }

  /** The upload metadata read back as caller metadata. */
  function AsFileMetadata(m: UploadMetadata): FileMetadata {
    FileMetadata(Some(m.mimeType), m.displayName, m.name)
  }

  /** `getUploadMetadata` is idempotent: running it on its own output gives
      that output again. */
  lemma GetUploadMetadataIdempotent(input: FileMetadata)
    requires GetUploadMetadata(input).Success?
    ensures GetUploadMetadata(AsFileMetadata(GetUploadMetadata(input).value)) == GetUploadMetadata(input)
  {
    var out := GetUploadMetadata(input).value;
    if out.name.Some? {
      NormaliseNameIdempotent(input.name.value);
      assert '/' in out.name.value;
    }
  }

  /** A name counts as canonical exactly when it contains `/`; the `files/`
      prefix itself is not looked for, so `a/b` is kept as it is. */
  lemma NormaliseNameKeepsAnySlash(name: string)
    ensures NormaliseName(name) == name <==> '/' in name
  {
  }
}

=== FILE: multipart.dfy ===
/** The multipart/related body of an upload: a JSON part holding the
    metadata, a part holding the file bytes, and a closing delimiter, all
    around a caller-chosen boundary token. The body is the `Blob` built from
    the text before the file, the file bytes, and the text after them; a
    `Blob` stores its string parts UTF-8 encoded. */
module Multipart {
  import opened Wrappers
  import opened Strings
  import opened Utf8

  const JsonPartHeader := "Content-Type: application/json; charset=utf-8\r\n\r\n"
  const HeaderEnd := "\r\n\r\n"

  /** The first delimiter line and the JSON part's headers. */
  function Opening(boundary: string): string {
    "--" + boundary + "\r\n" + JsonPartHeader
  }

  /** The delimiter between the two parts and the start of the file part's
      `Content-Type` header. */
  function Divider(boundary: string): string {
    "\r\n--" + boundary + "\r\n" + "Content-Type: "
  }

  /** `preBlobPart`: everything before the file bytes. It starts with the
      boundary's delimiter line and the JSON part's headers, the metadata
      follows them, then the divider that opens the file part, and it ends
      with the mime type and the blank line that closes the file part's
      headers. */
  function PreBlobPart(boundary: string, metadataJson: string, mimeType: string): (r: string)
    ensures |r| == |Opening(boundary)| + |metadataJson| + |Divider(boundary)| + |mimeType| + |HeaderEnd|
    ensures IsPrefix(Opening(boundary), r)
    ensures r[|Opening(boundary)|..|Opening(boundary)| + |metadataJson|] == metadataJson
    ensures r[|Opening(boundary)| + |metadataJson|..|Opening(boundary)| + |metadataJson| + |Divider(boundary)|] ==
      Divider(boundary)
    ensures IsSuffix(mimeType + HeaderEnd, r)
  {
    var o, d := Opening(boundary), Divider(boundary);
    var r := o + metadataJson + d + mimeType + HeaderEnd;
    assert r[..|o|] == o;
    assert r[|o|..|o| + |metadataJson|] == metadataJson;
    assert r[|o| + |metadataJson|..|o| + |metadataJson| + |d|] == d;
    assert r[|r| - |mimeType + HeaderEnd|..] == mimeType + HeaderEnd;
    r
  }

  /** `postBlobPart`: the closing delimiter, which repeats the delimiter line
      that separates the two parts and adds `--` after the boundary
      (section 5.1.1 of RFC 2046). */
  function PostBlobPart(boundary: string): (r: string)
    ensures |r| == |boundary| + 6
    ensures r[..|boundary| + 4] == Divider(boundary)[..|boundary| + 4]
    ensures r[4..|boundary| + 4] == boundary
    ensures r[|boundary| + 4..] == "--"
  {
    var d := "\r\n--" + boundary;
    assert Divider(boundary) == d + ("\r\n" + "Content-Type: ");
    var r := d + "--";
    assert r[..|d|] == d == Divider(boundary)[..|d|];
    assert r[4..|d|] == boundary;
    r
  }

  /** The `Content-Type` header sent with the body. */
  function ContentTypeHeader(boundary: string): (r: string)
    ensures IsPrefix("multipart/related; boundary=", r)
    ensures r[|"multipart/related; boundary="|..] == boundary
  {
    var r := "multipart/related; boundary=" + boundary;
    assert r[..|"multipart/related; boundary="|] == "multipart/related; boundary=";
    r
  }

  /** The request body: the encoded text before the file, the file bytes
      untouched, the encoded closing delimiter. */
  function Body(boundary: string, metadataJson: string, mimeType: string, file: seq<byte>): (r: seq<byte>)
    ensures var pre := Encode(PreBlobPart(boundary, metadataJson, mimeType));
      |r| == |pre| + |file| + |Encode(PostBlobPart(boundary))| &&
      IsPrefix(pre, r) &&
      r[|pre|..|pre| + |file|] == file &&
      IsSuffix(Encode(PostBlobPart(boundary)), r)
  {
    var pre := Encode(PreBlobPart(boundary, metadataJson, mimeType));
    var post := Encode(PostBlobPart(boundary));
    var r := pre + file + post;
    assert r[..|pre|] == pre;
    assert r[|pre|..|pre| + |file|] == file;
    assert r[|r| - |post|..] == post;
    r
  }

  /** The pieces a body is read back into: the metadata's and mime type's
      encoded bytes, and the file bytes. */
  datatype Parts = Parts(metadata: seq<byte>, mimeType: seq<byte>, file: seq<byte>)

  /** The index of the first `x` in `s`, or `|s|` when there is none. */
  function FirstIndexOf(s: seq<byte>, x: byte): (r: nat)
    ensures r <= |s|
    ensures forall i | 0 <= i < r :: s[i] != x
    ensures r < |s| ==> s[r] == x
    decreases |s|
  {
    if |s| == 0 then 0
    else if s[0] == x then 0
    else FirstIndexOf(s[1..], x) + 1
  }

  /** Reading a body back: the opening, then the metadata up to the first
      carriage return, the divider, the mime type up to the next carriage
      return, the end of the part headers, and the file up to the closing
      delimiter, which is taken from the end. */
  function Decode(body: seq<byte>, boundary: string): Option<Parts> {
    DecodeWith(body, Encode(Opening(boundary)), Encode(Divider(boundary)), Encode(HeaderEnd),
      Encode(PostBlobPart(boundary)))
  }

  /** `Decode` with the encoded fixed pieces given. */
  function DecodeWith(body: seq<byte>, opening: seq<byte>, divider: seq<byte>, headerEnd: seq<byte>,
    post: seq<byte>): Option<Parts>
  {
    if !IsPrefix(opening, body) then None else
    var r1 := body[|opening|..];
    var i := FirstIndexOf(r1, CarriageReturn);
    var r2 := r1[i..];
    if !IsPrefix(divider, r2) then None else
    var r3 := r2[|divider|..];
    var j := FirstIndexOf(r3, CarriageReturn);
    var r4 := r3[j..];
    if !IsPrefix(headerEnd, r4) then None else
    var r5 := r4[|headerEnd|..];
    if !IsSuffix(post, r5) then None else
    Some(Parts(r1[..i], r3[..j], r5[..|r5| - |post|]))
  }

  /** Searching past bytes without a carriage return stops where the next
      piece starts, when that piece begins with one. */
  lemma FirstCRAfter(a: seq<byte>, c: seq<byte>)
    requires CarriageReturn !in a
    requires |c| > 0 && c[0] == CarriageReturn
    ensures FirstIndexOf(a + c, CarriageReturn) == |a|
  {
    var s := a + c;
    var k := FirstIndexOf(s, CarriageReturn);
    assert s[|a|] == CarriageReturn;
    assert k >= |a| by {
      forall i | 0 <= i < |a| ensures s[i] != CarriageReturn { assert s[i] == a[i]; }
    }
  }

  /** Reading back pieces laid end to end, when the metadata and mime type
      hold no carriage return and the divider and header end start with one. */
  lemma DecodeWithPieces(o: seq<byte>, m: seq<byte>, d: seq<byte>, t: seq<byte>, e: seq<byte>,
    file: seq<byte>, post: seq<byte>)
    requires CarriageReturn !in m && CarriageReturn !in t
    requires |d| > 0 && d[0] == CarriageReturn && |e| > 0 && e[0] == CarriageReturn
    ensures DecodeWith(o + (m + (d + (t + (e + (file + post))))), o, d, e, post) == Some(Parts(m, t, file))
  {
    var body := o + (m + (d + (t + (e + (file + post)))));
    assert body[..|o|] == o;
    var r1 := body[|o|..];
    assert r1 == m + (d + (t + (e + (file + post))));
    FirstCRAfter(m, d + (t + (e + (file + post))));
    assert r1[..|m|] == m;
    var r2 := r1[|m|..];
    assert r2 == d + (t + (e + (file + post)));
    assert r2[..|d|] == d;
    var r3 := r2[|d|..];
    assert r3 == t + (e + (file + post));
    FirstCRAfter(t, e + (file + post));
    assert r3[..|t|] == t;
    var r4 := r3[|t|..];
    assert r4 == e + (file + post);
    assert r4[..|e|] == e;
    var r5 := r4[|e|..];
    assert r5 == file + post;
    assert r5[|r5| - |post|..] == post;
    assert r5[..|r5| - |post|] == file;
  }

  /** Five texts encode piece by piece, as the text before the file is
      built from five. */
  lemma EncodeFive(o: string, m: string, d: string, t: string, e: string)
    ensures Encode(o + m + d + t + e) == Encode(o) + Encode(m) + Encode(d) + Encode(t) + Encode(e)
  {
    EncodeConcat(o + m + d + t, e);
    EncodeConcat(o + m + d, t);
    EncodeConcat(o + m, d);
    EncodeConcat(o, m);
  }

  /** The body reads back into the encodings of the metadata and the mime
      type, and the file it was built from, whatever the file holds, provided the metadata
      and the mime type contain no carriage return (`JSON.stringify` escapes
      every control character, so its output never does). */
  lemma DecodeBody(boundary: string, metadataJson: string, mimeType: string, file: seq<byte>)
    requires '\r' !in metadataJson && '\r' !in mimeType
    ensures Decode(Body(boundary, metadataJson, mimeType, file), boundary) ==
      Some(Parts(Encode(metadataJson), Encode(mimeType), file))
  {
    var O := Encode(Opening(boundary));
    var M := Encode(metadataJson);
    var D := Encode(Divider(boundary));
    var T := Encode(mimeType);
    var E := Encode(HeaderEnd);
    var P := Encode(PostBlobPart(boundary));
    var pre := Encode(PreBlobPart(boundary, metadataJson, mimeType));
    assert PreBlobPart(boundary, metadataJson, mimeType) ==
      Opening(boundary) + metadataJson + Divider(boundary) + mimeType + HeaderEnd;
    EncodeFive(Opening(boundary), metadataJson, Divider(boundary), mimeType, HeaderEnd);
    assert pre == O + M + D + T + E;
    assert Body(boundary, metadataJson, mimeType, file) == pre + file + P;
    SeqAssoc(O, M, D, T, E, file, P);
    EncodeWithoutCR(metadataJson);
    EncodeWithoutCR(mimeType);
    EncodeStartsWithCR(Divider(boundary));
    EncodeStartsWithCR(HeaderEnd);
    DecodeWithPieces(O, M, D, T, E, file, P);
  }

  lemma SeqAssoc<X>(a: seq<X>, b: seq<X>, c: seq<X>, d: seq<X>, e: seq<X>, f: seq<X>, g: seq<X>)
    ensures (a + b + c + d + e) + f + g == a + (b + (c + (d + (e + (f + g)))))
  {
  }

  /** Nothing escapes the boundary inside the metadata: metadata that ends
      with a copy of the divider and the file part's headers yields the same
      body as the original metadata with those bytes moved to the front of
      the file. */
  lemma FramingAmbiguous(boundary: string, metadataJson: string, mimeType: string, file: seq<byte>)
    ensures var x := Divider(boundary) + mimeType + HeaderEnd;
      Body(boundary, metadataJson + x, mimeType, file) ==
      Body(boundary, metadataJson, mimeType, Encode(x) + file)
  {
    var o, d := Opening(boundary), Divider(boundary);
    var x := d + mimeType + HeaderEnd;
    var pre := PreBlobPart(boundary, metadataJson, mimeType);
    var post := Encode(PostBlobPart(boundary));
    assert pre == o + metadataJson + d + mimeType + HeaderEnd;
    assert PreBlobPart(boundary, metadataJson + x, mimeType) == o + (metadataJson + x) + d + mimeType + HeaderEnd;
    AppendRepeat(o, metadataJson, d, mimeType, HeaderEnd);
    BodyLayout(boundary, metadataJson + x, mimeType, file);
    BodyLayout(boundary, metadataJson, mimeType, Encode(x) + file);
    EncodeConcat(pre, x);
    RegroupMiddle(Encode(pre), Encode(x), file, post);
  }

  lemma RegroupMiddle<X>(a: seq<X>, b: seq<X>, c: seq<X>, d: seq<X>)
    ensures (a + b) + c + d == a + (b + c) + d
  {
  }

  lemma AppendRepeat<X>(o: seq<X>, m: seq<X>, d: seq<X>, t: seq<X>, e: seq<X>)
    ensures o + (m + (d + t + e)) + d + t + e == (o + m + d + t + e) + (d + t + e)
  {
  }

  /** The body is the three pieces laid end to end. */
  lemma BodyLayout(boundary: string, metadataJson: string, mimeType: string, file: seq<byte>)
    ensures Body(boundary, metadataJson, mimeType, file) ==
      Encode(PreBlobPart(boundary, metadataJson, mimeType)) + file + Encode(PostBlobPart(boundary))
  {
  }

  /** Bodies built from metadata and mime types without a carriage return
      are distinct whenever any of the three inputs differ: decoding
      recovers the encoded texts and the file, and encoding is injective. */
  lemma BodyInjective(boundary: string, metadataJson: string, mimeType: string, file: seq<byte>,
    metadataJson': string, mimeType': string, file': seq<byte>)
    requires '\r' !in metadataJson && '\r' !in mimeType
    requires '\r' !in metadataJson' && '\r' !in mimeType'
    ensures Body(boundary, metadataJson, mimeType, file) == Body(boundary, metadataJson', mimeType', file') ==>
      metadataJson == metadataJson' && mimeType == mimeType' && file == file'
  {
    DecodeBody(boundary, metadataJson, mimeType, file);
    DecodeBody(boundary, metadataJson', mimeType', file');
    EncodeInjective(metadataJson, metadataJson');
    EncodeInjective(mimeType, mimeType');
  }
}

=== FILE: requests.dfy ===
/** Request construction for the Files API: request options, the `FilesTask` and its
    HTTP method, the `x-goog-api-client` header, and the request target
    (`FilesRequestUrl`) as a plain string with an ordered list of query
    parameters. */
module Requests {
  import opened Wrappers
  import opened Strings

  const DefaultBaseUrl := "https://generativelanguage.googleapis.com"
  const DefaultApiVersion := "v1beta"
  const PackageVersion := "0.12.0"
  const PackageLogHeader := "genai-js"

  /** The tag every client header ends with: `genai-js/0.12.0`. */
  const ClientTag := PackageLogHeader + "/" + PackageVersion

  /** The caller's `RequestOptions`; an absent field is `undefined`. */
  datatype RequestOptions = RequestOptions(
    apiClient: Option<string>,
    apiVersion: Option<string>,
    baseUrl: Option<string>,
    timeout: Option<int>)

  datatype FilesTask = Upload | List | Get | Delete

  datatype Method = Post | GetMethod | DeleteMethod

  /** `o || d` for an optional string: the empty string is falsy. */
  function OrDefault(o: Option<string>, d: string): (r: string)
    ensures o.Some? && o.value != "" ==> r == o.value
    ensures o.None? || o.value == "" ==> r == d
  {
    match o
    case Some(s) => if s != "" then s else d
    case None => d
  }

  /** A field of possibly absent options (`requestOptions?.field`). */
  function ApiClientOf(opts: Option<RequestOptions>): Option<string> {
    if opts.Some? then opts.value.apiClient else None
  }

  function ApiVersionOf(opts: Option<RequestOptions>): string {
    OrDefault(if opts.Some? then opts.value.apiVersion else None, DefaultApiVersion)
  }

  function BaseUrlOf(opts: Option<RequestOptions>): string {
    OrDefault(if opts.Some? then opts.value.baseUrl else None, DefaultBaseUrl)
  }

  /** The HTTP method each task is sent with. */
  function TaskToMethod(t: FilesTask): (m: Method)
    ensures m == Post <==> t == Upload
    ensures m == GetMethod <==> t == List || t == Get
    ensures m == DeleteMethod <==> t == Delete
  {
    match t
    case Upload => Post
    case List => GetMethod
    case Get => GetMethod
    case Delete => DeleteMethod
  }

  /** The `x-goog-api-client` header value: the caller's `apiClient` tag, if
      one is set and non-empty, then the SDK's own tag, joined by a space. */
  function GetClientHeaders(opts: Option<RequestOptions>): (r: string)
    ensures IsSuffix(ClientTag, r)
    ensures ApiClientOf(opts).Some? && ApiClientOf(opts).value != "" ==>
      r == ApiClientOf(opts).value + " " + ClientTag
    ensures ApiClientOf(opts).None? || ApiClientOf(opts).value == "" ==> r == ClientTag
  {
    var client := ApiClientOf(opts);
    var parts := if client.Some? && client.value != "" then [client.value, ClientTag] else [ClientTag];
    assert parts[1..] == [ClientTag] ==> Join(parts[1..], " ") == ClientTag;
    Join(parts, " ")
  }

  /** The request target: the URL text built so far, plus the query
      parameters appended with `appendParam`, in call order. */
  datatype FilesRequestUrl = FilesRequestUrl(
    task: FilesTask,
    apiKey: string,
    options: Option<RequestOptions>,
    href: string,
    params: seq<(string, string)>)

  /** The path segment inserted after the base for uploads only. */
  function UploadSegment(t: FilesTask): string {
    if t == Upload then "/upload" else ""
  }

  /** The `FilesRequestUrl` constructor: the configured (or default) base,
      `/upload` for an upload, then `/<version>/files`. */
  function NewRequestUrl(task: FilesTask, apiKey: string, opts: Option<RequestOptions>): (u: FilesRequestUrl)
    ensures u.task == task && u.apiKey == apiKey && u.options == opts
    ensures u.params == []
    ensures IsPrefix(BaseUrlOf(opts), u.href)
    ensures IsSuffix("/" + ApiVersionOf(opts) + "/files", u.href)
    ensures |u.href| == |BaseUrlOf(opts)| + |UploadSegment(task)| + |ApiVersionOf(opts)| + 7
    ensures task == Upload ==>
      u.href[|BaseUrlOf(opts)|..|BaseUrlOf(opts)| + 7] == "/upload"
  {
    var base := BaseUrlOf(opts);
    var version := ApiVersionOf(opts);
    var initial := base + UploadSegment(task);
    HrefLayout(base, UploadSegment(task), version);
    FilesRequestUrl(task, apiKey, opts, initial + "/" + version + "/files", [])
  }

  /** Where the base, the segment and the version sit in a target. */
  lemma HrefLayout(base: string, segment: string, version: string)
    ensures var href := base + segment + "/" + version + "/files";
      && |href| == |base| + |segment| + |version| + 7
      && IsPrefix(base, href)
      && href[|base|..|base| + |segment|] == segment
      && IsSuffix("/" + version + "/files", href)
  {
    var tail := "/" + version + "/files";
    var href := base + segment + "/" + version + "/files";
    assert href == (base + segment) + tail;
    assert href[..|base|] == base;
    assert href[|base|..|base| + |segment|] == segment;
    assert href[|href| - |tail|..] == tail;
  }

  /** `appendPath`: a `/` and the segment are added to the end of the path. */
  function AppendPath(u: FilesRequestUrl, path: string): (r: FilesRequestUrl)
    ensures IsPrefix(u.href, r.href)
    ensures r.href[|u.href|..] == "/" + path
    ensures r.task == u.task && r.apiKey == u.apiKey && r.options == u.options && r.params == u.params
  {
    var href := u.href + "/" + path;
    assert href[..|u.href|] == u.href;
    u.(href := href)
  }

  /** `appendParam`: the pair is added after all earlier ones; a repeated key
      is kept alongside the earlier pair. */
  function AppendParam(u: FilesRequestUrl, key: string, value: string): (r: FilesRequestUrl)
    ensures |r.params| == |u.params| + 1
    ensures r.params[..|u.params|] == u.params && r.params[|u.params|] == (key, value)
    ensures r.task == u.task && r.apiKey == u.apiKey && r.options == u.options && r.href == u.href
  {
    u.(params := u.params + [(key, value)])
  }

  /** The segments joined into one path suffix, each preceded by `/`. */
  function Segments(paths: seq<string>): string
    decreases |paths|
  {
    if |paths| == 0 then "" else "/" + paths[0] + Segments(paths[1..])
  }

  lemma AppendPathAppends(u: FilesRequestUrl, path: string)
    ensures AppendPath(u, path).href == u.href + "/" + path
  {
  }

  /** A series of `appendPath` calls, in order. */
  function AppendPaths(u: FilesRequestUrl, paths: seq<string>): FilesRequestUrl
    decreases |paths|
  {
    if |paths| == 0 then u else AppendPaths(AppendPath(u, paths[0]), paths[1..])
  }

  /** Appending segments one by one leaves the path followed by every segment
      in call order, and changes nothing else. */
  lemma {:induction false} AppendPathsInOrder(u: FilesRequestUrl, paths: seq<string>)
    ensures AppendPaths(u, paths).href == u.href + Segments(paths)
    ensures AppendPaths(u, paths).(href := u.href) == u
    decreases |paths|
  {
    if |paths| > 0 {
      var v := AppendPath(u, paths[0]);
      AppendPathsInOrder(v, paths[1..]);
      assert v.href + Segments(paths[1..]) == u.href + Segments(paths);
    }
  }

  /** Two runs of appends equal one run of the concatenated segments. */
  lemma {:induction false} AppendPathsCompose(u: FilesRequestUrl, ps: seq<string>, qs: seq<string>)
    ensures AppendPaths(AppendPaths(u, ps), qs) == AppendPaths(u, ps + qs)
    decreases |ps|
  {
    if |ps| > 0 {
      assert (ps + qs)[0] == ps[0];
      assert (ps + qs)[1..] == ps[1..] + qs;
      AppendPathsCompose(AppendPath(u, ps[0]), ps[1..], qs);
    } else {
      assert ps + qs == qs;
    }
  }

  /** A query parameter as `key=value` (percent-encoding is not modelled). */
  function ParamText(kv: (string, string)): string {
    kv.0 + "=" + kv.1
  }

  function ParamTexts(ps: seq<(string, string)>): (r: seq<string>)
    ensures |r| == |ps|
    ensures forall i | 0 <= i < |ps| :: r[i] == ParamText(ps[i])
  {
    seq(|ps|, i requires 0 <= i < |ps| => ParamText(ps[i]))
  }

  /** `toString()`: the path, then `?` and the `&`-joined pairs when there
      are any. */
  function ToString(u: FilesRequestUrl): (r: string)
    ensures u.params == [] ==> r == u.href
    ensures u.params != [] ==> IsPrefix(u.href + "?", r)
    ensures u.params != [] ==> r[|u.href| + 1..] == Join(ParamTexts(u.params), "&")
  {
    if u.params == [] then u.href
    else
      var r := u.href + "?" + Join(ParamTexts(u.params), "&");
      assert r[..|u.href + "?"|] == u.href + "?";
      assert r[|u.href| + 1..] == Join(ParamTexts(u.params), "&");
      r
  }

  /** The query text reads back into the pairs in call order: splitting it
      at `&` gives each `key=value` text, provided no key or value holds an
      `&` (which percent-encoding would guarantee). */
  lemma {:induction false} QueryReadsBack(u: FilesRequestUrl)
    requires u.params != []
    requires forall i | 0 <= i < |u.params| :: '&' !in u.params[i].0 && '&' !in u.params[i].1
    ensures Split(ToString(u)[|u.href| + 1..], "&") == ParamTexts(u.params)
  {
    var texts := ParamTexts(u.params);
    forall i | 0 <= i < |texts|
      ensures '&' !in texts[i]
    {
      assert texts[i] == u.params[i].0 + "=" + u.params[i].1;
    }
    forall i | 0 <= i < |texts|
      ensures StopsAtFirst(texts[i], "&") && !Contains(texts[i], "&")
    {
      StopsAtSingle(texts[i], '&');
    }
    SplitUnique(ToString(u)[|u.href| + 1..], "&", texts);
  }

  /** List, get and delete start from the same target; an upload target is
      that target with `/upload` inserted right after the base. */
  lemma UploadTargetInsertsSegment(opts: Option<RequestOptions>, t: FilesTask)
    requires t != Upload
    ensures NewRequestUrl(t, "", opts).href == NewRequestUrl(List, "", opts).href
    ensures var base := BaseUrlOf(opts);
      NewRequestUrl(Upload, "", opts).href ==
        base + "/upload" + NewRequestUrl(t, "", opts).href[|base|..]
  {
    var base := BaseUrlOf(opts);
    var h := NewRequestUrl(t, "", opts).href;
    assert h == base + "/" + ApiVersionOf(opts) + "/files";
    assert h[|base|..] == "/" + ApiVersionOf(opts) + "/files";
  }

  /** With no options, the target is the default host and version; an empty
      base or version string counts as absent. */
  lemma EmptyOptionsFallBack(t: FilesTask, c: Option<string>, timeout: Option<int>)
    ensures NewRequestUrl(List, "", None).href ==
      "https://generativelanguage.googleapis.com/v1beta/files"
    ensures NewRequestUrl(t, "", Some(RequestOptions(c, Some(""), Some(""), timeout))).href ==
      NewRequestUrl(t, "", None).href
  {
  }
}

=== FILE: strings.dfy ===
/** Sequence and string helpers shared by the model: substring search with the
    semantics of ECMAScript `String.prototype.indexOf`, `split` with a
    non-empty string separator, `Array.prototype.join`, and decimal rendering
    of non-negative integers as `Number.prototype.toString` does it. */
module Strings {
  import opened Wrappers

  predicate IsPrefix<T(==)>(p: seq<T>, s: seq<T>) {
    |p| <= |s| && s[..|p|] == p
  }

  predicate IsSuffix<T(==)>(p: seq<T>, s: seq<T>) {
    |p| <= |s| && s[|s| - |p|..] == p
  }

  /** `p` occurs in `s` starting at index `i`. */
  predicate OccursAt<T(==)>(s: seq<T>, p: seq<T>, i: nat) {
    i + |p| <= |s| && s[i..i + |p|] == p
  }

  /** `p` is a substring of `s` (`s.includes(p)`). */
  predicate Contains<T(==)>(s: seq<T>, p: seq<T>) {
    exists i: nat | i <= |s| :: OccursAt(s, p, i)
  }

  lemma OccursAtTail<T>(s: seq<T>, p: seq<T>, k: nat)
    requires |s| > 0
    ensures OccursAt(s[1..], p, k) <==> OccursAt(s, p, k + 1)
  {
    if k + 1 + |p| <= |s| {
      assert s[1..][k..k + |p|] == s[k + 1..k + 1 + |p|];
    }
  }

  /** The index of the first occurrence of `p` in `s`, if there is one. */
  function IndexOf<T(==)>(s: seq<T>, p: seq<T>): (r: Option<nat>)
    ensures r.Some? ==> OccursAt(s, p, r.value)
    ensures r.Some? ==> forall k: nat | k < r.value :: !OccursAt(s, p, k)
    ensures r.None? ==> !Contains(s, p)
    decreases |s|
  {
    if IsPrefix(p, s) then
      assert s[0..|p|] == s[..|p|];
      Some(0)
    else if |s| == 0 then
      None
    else
      var t := IndexOf(s[1..], p);
      IndexOfStep(s, p, t);
      match t
      case None => None
      case Some(k) => Some(k + 1)
  }

  /** How the search result for `s[1..]` carries over to `s` when `p` is not
      a prefix of `s`. */
  lemma IndexOfStep<T>(s: seq<T>, p: seq<T>, t: Option<nat>)
    requires |s| > 0 && !IsPrefix(p, s)
    requires t.Some? ==> OccursAt(s[1..], p, t.value)
    requires t.Some? ==> forall k: nat | k < t.value :: !OccursAt(s[1..], p, k)
    requires t.None? ==> !Contains(s[1..], p)
    ensures t.Some? ==> OccursAt(s, p, t.value + 1)
    ensures t.Some? ==> forall k: nat | k < t.value + 1 :: !OccursAt(s, p, k)
    ensures t.None? ==> !Contains(s, p)
  {
    assert !OccursAt(s, p, 0) by {
      if |p| <= |s| {
        assert s[0..|p|] == s[..|p|];
      }
    }
    forall k: nat | k + 1 <= |s|
      ensures OccursAt(s[1..], p, k) <==> OccursAt(s, p, k + 1)
    {
      OccursAtTail(s, p, k);
    }
    if t.Some? {
      forall k: nat | 0 < k < t.value + 1
        ensures !OccursAt(s, p, k)
      {
        assert !OccursAt(s[1..], p, k - 1);
      }
    } else {
      forall i: nat | 0 < i <= |s|
        ensures !OccursAt(s, p, i)
      {
        assert !OccursAt(s[1..], p, i - 1);
      }
    }
  }

  /** `parts` joined with `sep` between consecutive elements (`parts.join(sep)`). */
  function Join<T>(parts: seq<seq<T>>, sep: seq<T>): seq<T>
    decreases |parts|
  {
    if |parts| == 0 then []
    else if |parts| == 1 then parts[0]
    else parts[0] + sep + Join(parts[1..], sep)
  }

  /** `r` are the pieces of `s` around the left-to-right, non-overlapping
      occurrences of `sep`: they join back to `s`, the last holds no `sep`,
      and every earlier piece stops exactly where the first occurrence of
      `sep` after its start begins. */
  predicate IsSplit<T(==)>(s: seq<T>, sep: seq<T>, r: seq<seq<T>>) {
    && |r| >= 1
    && Join(r, sep) == s
    && !Contains(r[|r| - 1], sep)
    && forall k | 0 <= k < |r| - 1 :: StopsAtFirst(r[k], sep)
  }

  /** `piece` followed by `sep` holds no occurrence of `sep` before the one
      that follows `piece`. */
  predicate StopsAtFirst<T(==)>(piece: seq<T>, sep: seq<T>) {
    IndexOf(piece + sep, sep) == Some(|piece|)
  }

  /** The pieces `s.split(sep)` returns for a non-empty string separator: the
      text before each left-to-right, non-overlapping occurrence of `sep`,
      then the rest. */
  function Split<T(==)>(s: seq<T>, sep: seq<T>): (r: seq<seq<T>>)
    requires |sep| > 0
    ensures IsSplit(s, sep, r)
    ensures forall k | 0 <= k < |r| :: !Contains(r[k], sep)
    ensures IndexOf(s, sep).None? ==> r == [s]
    ensures IndexOf(s, sep).Some? ==> |r| >= 2 && r[0] == s[..IndexOf(s, sep).value]
    decreases |s|
  {
    match IndexOf(s, sep)
    case None => [s]
    case Some(j) =>
      var rest := Split(s[j + |sep|..], sep);
      SplitAtFirst(s, sep, j, rest);
      [s[..j]] + rest
  }

  /** A piece without the one-element separator `[c]` stops at the `c` that
      follows it. */
  lemma StopsAtSingle<T>(x: seq<T>, c: T)
    requires c !in x
    ensures StopsAtFirst(x, [c]) && !Contains(x, [c])
  {
    var t := x + [c];
    forall k: nat | k < |x|
      ensures !OccursAt(t, [c], k)
    {
      assert t[k..k + 1] == [x[k]];
    }
    forall k: nat | k <= |x|
      ensures !OccursAt(x, [c], k)
    {
      if k < |x| {
        assert x[k..k + 1] == [x[k]];
      }
    }
    assert t[|x|..|x| + 1] == [c];
    IndexOfIsFirst(t, [c], |x|);
  }

  /** The step `Split` takes at the first occurrence `j` of `sep`. */
  lemma SplitAtFirst<T>(s: seq<T>, sep: seq<T>, j: nat, rest: seq<seq<T>>)
    requires |sep| > 0 && IndexOf(s, sep) == Some(j)
    requires IsSplit(s[j + |sep|..], sep, rest)
    requires forall k | 0 <= k < |rest| :: !Contains(rest[k], sep)
    ensures IsSplit(s, sep, [s[..j]] + rest)
    ensures forall k | 0 <= k < 1 + |rest| :: !Contains(([s[..j]] + rest)[k], sep)
  {
    PrefixBeforeFirstOccurrence(s, sep, j);
    FirstOccurrenceInPrefix(s, sep, j);
    Decompose(s, sep, j);
    var x, tail := s[..j], s[j + |sep|..];
    assert StopsAtFirst(x, sep) && !Contains(x, sep);
    SplitStep(x, tail, sep, rest);
  }

  /** The text around an occurrence of `sep` at `j`. */
  lemma Decompose<T>(s: seq<T>, sep: seq<T>, j: nat)
    requires OccursAt(s, sep, j)
    ensures s == s[..j] + sep + s[j + |sep|..]
  {
  }

  /** One step of `Split`: a first piece that stops at the first `sep`,
      followed by the pieces of the text after that `sep`, splits the whole. */
  lemma SplitStep<T>(x: seq<T>, tail: seq<T>, sep: seq<T>, rest: seq<seq<T>>)
    requires StopsAtFirst(x, sep) && !Contains(x, sep)
    requires IsSplit(tail, sep, rest)
    requires forall k | 0 <= k < |rest| :: !Contains(rest[k], sep)
    ensures IsSplit(x + sep + tail, sep, [x] + rest)
    ensures forall k | 0 <= k < 1 + |rest| :: !Contains(([x] + rest)[k], sep)
  {
    JoinCons(x, rest, sep);
    PiecesCons(x, rest, sep);
  }

  lemma JoinCons<T>(x: seq<T>, rest: seq<seq<T>>, sep: seq<T>)
    requires |rest| >= 1
    ensures Join([x] + rest, sep) == x + sep + Join(rest, sep)
  {
    assert ([x] + rest)[1..] == rest;
  }

  /** The per-piece conditions of `IsSplit` and the absence of `sep` carry
      over from `rest` to `[x] + rest` when they hold of `x`. */
  lemma PiecesCons<T>(x: seq<T>, rest: seq<seq<T>>, sep: seq<T>)
    requires |rest| >= 1 && StopsAtFirst(x, sep) && !Contains(x, sep)
    requires forall k | 0 <= k < |rest| - 1 :: StopsAtFirst(rest[k], sep)
    requires forall k | 0 <= k < |rest| :: !Contains(rest[k], sep)
    ensures forall k | 0 <= k < |rest| :: StopsAtFirst(([x] + rest)[k], sep)
    ensures forall k | 0 <= k < 1 + |rest| :: !Contains(([x] + rest)[k], sep)
    ensures ([x] + rest)[|rest|] == rest[|rest| - 1]
  {
    var r := [x] + rest;
    forall k | 0 < k < |r|
      ensures r[k] == rest[k - 1]
    {
    }
  }

  /** `IndexOf` finds something exactly when there is something to find. */
  lemma IndexOfFindsAny<T>(s: seq<T>, p: seq<T>)
    ensures IndexOf(s, p).Some? <==> Contains(s, p)
  {
    if IndexOf(s, p).Some? {
      assert OccursAt(s, p, IndexOf(s, p).value);
    }
  }

  /** An occurrence of `p` with none before it is what `IndexOf` finds. */
  lemma IndexOfIsFirst<T>(s: seq<T>, p: seq<T>, j: nat)
    requires OccursAt(s, p, j)
    requires forall k: nat | k < j :: !OccursAt(s, p, k)
    ensures IndexOf(s, p) == Some(j)
  {
    assert Contains(s, p);
  }

  /** An occurrence that ends within the first `n` elements is one of
      `s[..n]` too, and conversely. */
  lemma OccursAtPrefix<T>(s: seq<T>, p: seq<T>, k: nat, n: nat)
    requires k + |p| <= n <= |s|
    ensures OccursAt(s[..n], p, k) <==> OccursAt(s, p, k)
  {
    assert s[..n][k..k + |p|] == s[k..k + |p|];
  }

  /** Cutting `s` just after its first occurrence of `p` keeps that
      occurrence first. */
  lemma FirstOccurrenceInPrefix<T>(s: seq<T>, p: seq<T>, j: nat)
    requires IndexOf(s, p) == Some(j)
    ensures IndexOf(s[..j] + p, p) == Some(j)
  {
    var n := j + |p|;
    assert s[..j] + p == s[..n] by {
      assert OccursAt(s, p, j);
    }
    forall k: nat | k <= j
      ensures OccursAt(s[..n], p, k) <==> OccursAt(s, p, k)
    {
      OccursAtPrefix(s, p, k, n);
    }
    IndexOfIsFirst(s[..n], p, j);
  }

  /** Appending text after the first occurrence of `p` does not move it. */
  lemma IndexOfWithin<T>(a: seq<T>, rest: seq<T>, p: seq<T>)
    ensures IndexOf(a, p).Some? ==> IndexOf(a + rest, p) == IndexOf(a, p)
  {
    if IndexOf(a, p).Some? {
      var j := IndexOf(a, p).value;
      var s := a + rest;
      assert s[..|a|] == a;
      forall k: nat | k <= j
        ensures OccursAt(a, p, k) <==> OccursAt(s, p, k)
      {
        OccursAtPrefix(s, p, k, |a|);
      }
      IndexOfIsFirst(s, p, j);
    }
  }

  /** `Split` is the only splitting of `s` in the sense of `IsSplit`: any
      sequence of pieces with those properties is the one `Split` returns. */
  lemma {:induction false} SplitUnique<T>(s: seq<T>, sep: seq<T>, r: seq<seq<T>>)
    requires |sep| > 0
    requires IsSplit(s, sep, r)
    ensures r == Split(s, sep)
    decreases |r|
  {
    if |r| == 1 {
      IndexOfFindsAny(s, sep);
    } else {
      var tail := Join(r[1..], sep);
      JoinCons(r[0], r[1..], sep);
      assert r == [r[0]] + r[1..];
      IsSplitTail(s, sep, r);
      SplitUnique(tail, sep, r[1..]);
      SplitOfCons(r[0], tail, sep);
    }
  }

  /** Dropping the first piece of a splitting leaves a splitting of the text
      after the first separator. */
  lemma IsSplitTail<T>(s: seq<T>, sep: seq<T>, r: seq<seq<T>>)
    requires IsSplit(s, sep, r) && |r| >= 2
    ensures IsSplit(Join(r[1..], sep), sep, r[1..])
  {
    var r' := r[1..];
    assert r'[|r'| - 1] == r[|r| - 1];
    forall k | 0 <= k < |r'| - 1
      ensures StopsAtFirst(r'[k], sep)
    {
      assert r'[k] == r[k + 1];
    }
  }

  /** Splitting text that starts with a piece stopping at the first `sep`
      yields that piece and then the splitting of the rest. */
  lemma SplitOfCons<T>(x: seq<T>, tail: seq<T>, sep: seq<T>)
    requires |sep| > 0 && StopsAtFirst(x, sep)
    ensures Split(x + sep + tail, sep) == [x] + Split(tail, sep)
  {
    var s := x + sep + tail;
    IndexOfWithin(x + sep, tail, sep);
    assert IndexOf(s, sep) == Some(|x|);
    assert s[..|x|] == x;
    assert s[|x| + |sep|..] == tail;
  }

  /** The text before the first occurrence of `p` holds no occurrence of `p`. */
  lemma PrefixBeforeFirstOccurrence<T>(s: seq<T>, p: seq<T>, j: nat)
    requires |p| > 0 && j <= |s|
    requires forall k: nat | k < j :: !OccursAt(s, p, k)
    ensures !Contains(s[..j], p)
  {
    forall i: nat | i <= j && OccursAt(s[..j], p, i)
      ensures false
    {
      assert s[..j][i..i + |p|] == s[i..i + |p|];
      assert OccursAt(s, p, i);
    }
  }

  /** `s` up to (not including) the first occurrence of `p`, or all of `s`. */
  function UpToFirst<T(==)>(s: seq<T>, p: seq<T>): seq<T> {
    match IndexOf(s, p)
    case None => s
    case Some(j) => s[..j]
  }

  // ---------------------------------------------------------------------------
  // Decimal rendering

  predicate IsDigit(c: char) {
    '0' <= c <= '9'
  }

  function DigitChar(d: nat): (c: char)
    requires d < 10
    ensures IsDigit(c)
  {
    "0123456789"[d]
  }

  function DigitValue(c: char): (d: nat)
    requires IsDigit(c)
    ensures d < 10
  {
    c as int - '0' as int
  }

  lemma DigitValueOfDigitChar(d: nat)
    requires d < 10
    ensures DigitValue(DigitChar(d)) == d
  {
  }

  /** The decimal digits of `n` without leading zeros, as `String(n)`
      renders a non-negative integer. */
  function NatToString(n: nat): (r: string)
    ensures |r| >= 1
    ensures forall i | 0 <= i < |r| :: IsDigit(r[i])
    ensures r[0] == '0' ==> n == 0
    decreases n
  {
    if n < 10 then [DigitChar(n)]
    else NatToString(n / 10) + [DigitChar(n % 10)]
  }

  /** The value of a string of decimal digits. */
  function ParseNat(s: string): nat
    requires forall i | 0 <= i < |s| :: IsDigit(s[i])
    decreases |s|
  {
    if |s| == 0 then 0
    else ParseNat(s[..|s| - 1]) * 10 + DigitValue(s[|s| - 1])
  }

  /** Decimal rendering is invertible: reading the digits back gives `n`. */
  lemma {:induction false} ParseNatToString(n: nat)
    ensures ParseNat(NatToString(n)) == n
    decreases n
  {
    var s := NatToString(n);
    if n < 10 {
      DigitValueOfDigitChar(n);
    } else {
      var h := NatToString(n / 10);
      assert s == h + [DigitChar(n % 10)];
      assert s[..|s| - 1] == h;
      ParseNatToString(n / 10);
      DigitValueOfDigitChar(n % 10);
    }
  }

  /** Distinct numbers render to distinct strings. */
  lemma NatToStringInjective(m: nat, n: nat)
    requires NatToString(m) == NatToString(n)
    ensures m == n
  {
    ParseNatToString(m);
    ParseNatToString(n);
  }
}

=== FILE: transport.dfy ===
/** `makeFilesRequest`: the request sent for a target, and how the outcome of
    the injected `fetch` becomes a response or a single SDK error. */
module Transport {
  import opened Wrappers
  import opened Strings
  import opened Utf8
  import opened Errors
  import opened Requests

  type Header = (string, string)

  /** What `response.json()` made of a failed response's body: nothing
      usable (the body did not parse, or had no `error` object), or the
      `error` object's `message` and its `details` as their JSON text. */
  datatype ErrorBody =
    | Unparsable
    | Envelope(message: Option<string>, details: Option<string>)

  datatype Response = Response(ok: bool, status: nat, statusText: string, body: ErrorBody)

  /** What the injected `fetch` did: answered, or threw an error with this
      `message`. */
  datatype FetchOutcome = Responded(response: Response) | Threw(message: string)

  /** The arguments `fetch` is called with. */
  datatype HttpRequest = HttpRequest(
    url: string,
    verb: Method,
    headers: seq<Header>,
    body: Option<seq<byte>>,
    abortAfter: Option<int>)

  /** `getSignal`: the delay after which the request is aborted. A signal is
      armed exactly when a timeout of zero or more is configured, and it
      fires after that many milliseconds; otherwise there is none. */
  function GetSignal(opts: Option<RequestOptions>): (r: Option<int>)
    ensures r.Some? ==> r.value >= 0 && opts.Some? && opts.value.timeout == r
    ensures opts.Some? && opts.value.timeout.Some? && opts.value.timeout.value >= 0 ==> r.Some?
  {
    if opts.Some? && opts.value.timeout.Some? && opts.value.timeout.value >= 0 then opts.value.timeout
    else None
  }

  /** `getHeaders`: the client header, then the API key. */
  function GetHeaders(u: FilesRequestUrl): (r: seq<Header>)
    ensures |r| == 2
    ensures r[0] == ("x-goog-api-client", GetClientHeaders(u.options))
    ensures IsSuffix(ClientTag, r[0].1)
    ensures r[1] == ("x-goog-api-key", u.apiKey)
  {
    [("x-goog-api-client", GetClientHeaders(u.options)), ("x-goog-api-key", u.apiKey)]
  }

  /** The request `makeFilesRequest` hands to `fetch`. */
  function BuildRequest(u: FilesRequestUrl, headers: seq<Header>, body: Option<seq<byte>>): (r: HttpRequest)
    ensures r.url == ToString(u) && r.headers == headers && r.body == body
    ensures r.verb == TaskToMethod(u.task)
    ensures r.abortAfter == GetSignal(u.options)
  {
    HttpRequest(ToString(u), TaskToMethod(u.task), headers, body, GetSignal(u.options))
  }

  /** The start of every fetch error text. */
  function FetchPrefix(url: string): string {
    "Error fetching from " + url + ": "
  }

  /** `${undefined}` renders as `undefined`. */
  function Render(s: Option<string>): string {
    s.GetOr("undefined")
  }

  /** The server's part of a fetch error: `error.message`, with a space and
      the details' JSON after it when there are details; empty when the body
      was unusable. */
  function ServerMessage(body: ErrorBody): (r: string)
    ensures body.Unparsable? ==> r == ""
    ensures body.Envelope? && body.details.None? ==> r == Render(body.message)
    ensures body.Envelope? && body.details.Some? ==>
      IsPrefix(Render(body.message) + " ", r) &&
      r[|Render(body.message) + " "|..] == body.details.value
  {
    match body
    case Unparsable => ""
    case Envelope(message, details) =>
      if details.Some? then
        var r := Render(message) + " " + details.value;
        assert r[..|Render(message) + " "|] == Render(message) + " ";
        r
      else Render(message)
  }

  /** The details a fetch error keeps. */
  function DetailsOf(body: ErrorBody): Option<string> {
    if body.Envelope? then body.details else None
  }

  /** The text of the fetch error for a non-ok response. */
  function StatusText(url: string, r: Response): string {
    FetchPrefix(url) + "[" + NatToString(r.status) + " " + r.statusText + "] " + ServerMessage(r.body)
  }

  /** `e` is the error `makeFilesRequest` raises for `out` when fetching
      `url`: a thrown error keeps its message after the fetch prefix and
      gets no status; a non-ok response gives a fetch error with its status,
      status text, details and the status text layout. */
  predicate NormalisedError(e: SdkError, url: string, out: FetchOutcome) {
    match out
    case Threw(message) => e == GenericError(FetchPrefix(url) + message)
    case Responded(resp) =>
      !resp.ok && e == FetchError(StatusText(url, resp), resp.status, resp.statusText, DetailsOf(resp.body))
  }

  /** The two catch paths: a non-ok response becomes a fetch error with its
      status, status text and details; anything `fetch` throws becomes a
      plain SDK error with no status; an ok response is returned. */
  function Settle(url: string, outcome: FetchOutcome): (r: Result<Response, SdkError>)
    ensures r.Success? <==> outcome.Responded? && outcome.response.ok
    ensures r.Success? ==> r.value == outcome.response
    ensures outcome.Threw? ==> r.error == GenericError(FetchPrefix(url) + outcome.message)
    ensures outcome.Responded? && !outcome.response.ok ==>
      r.error.FetchError? &&
      r.error.status == outcome.response.status &&
      r.error.statusText == outcome.response.statusText &&
      r.error.errorDetails == DetailsOf(outcome.response.body) &&
      var head := FetchPrefix(url) + "[" + NatToString(outcome.response.status) + " ";
      var tail := "] " + ServerMessage(outcome.response.body);
      var n := |outcome.response.statusText|;
      |r.error.text| == |head| + n + |tail| &&
      IsPrefix(head, r.error.text) &&
      r.error.text[|head|..|head| + n] == outcome.response.statusText &&
      IsSuffix(tail, r.error.text)
    ensures r.Failure? ==> (Status(r.error).Some? <==> outcome.Responded?)
    ensures r.Failure? ==> NormalisedError(r.error, url, outcome)
  {
    match outcome
    case Threw(message) =>
      Failure(GenericError(FetchPrefix(url) + message))
    case Responded(resp) =>
      if resp.ok then Success(resp)
      else
        var head := FetchPrefix(url) + "[" + NatToString(resp.status) + " ";
        var tail := "] " + ServerMessage(resp.body);
        var text := StatusText(url, resp);
        assert text == head + resp.statusText + tail;
        assert text[..|head|] == head;
        assert text[|head|..|head| + |resp.statusText|] == resp.statusText;
        assert text[|text| - |tail|..] == tail;
        Failure(FetchError(text, resp.status, resp.statusText, DetailsOf(resp.body)))
  }

  /** `makeFilesRequest` with the transport injected: `fetch` is called once
      with the built request; only an ok response comes back, and every
      error is the one normalised from what `fetch` did: it names the target
      it was fetching and carries a status exactly when the server
      answered. */
  function MakeFilesRequest(u: FilesRequestUrl, headers: seq<Header>, body: Option<seq<byte>>,
    fetch: HttpRequest -> FetchOutcome): (r: Result<Response, SdkError>)
    ensures var out := fetch(BuildRequest(u, headers, body));
      (r.Success? <==> out.Responded? && out.response.ok) &&
      (r.Success? ==> r.value == out.response) &&
      (r.Failure? ==> (Status(r.error).Some? <==> out.Responded?)) &&
      (r.Failure? ==> NormalisedError(r.error, ToString(u), out))
    ensures r.Failure? ==> IsPrefix(FetchPrefix(ToString(u)), r.error.text)
  {
    var out := fetch(BuildRequest(u, headers, body));
    ErrorNamesTarget(ToString(u), out);
    Settle(ToString(u), out)
  }

  /** Both kinds of error text start with the fetch prefix for `url`. */
  lemma ErrorNamesTarget(url: string, out: FetchOutcome)
    ensures Settle(url, out).Failure? ==> IsPrefix(FetchPrefix(url), Settle(url, out).error.text)
  {
    var r := Settle(url, out);
    var p := FetchPrefix(url);
    if out.Threw? {
      assert r.error.text[..|p|] == p;
    } else if r.Failure? {
      var head := p + "[" + NatToString(out.response.status) + " ";
      assert head[..|p|] == p;
      assert r.error.text[..|p|] == head[..|p|];
    }
  }

  /** `t` shows `status` at index `k`: its decimal digits, then a space. */
  predicate ShowsStatus(t: string, k: nat, status: nat) {
    var digits := NatToString(status);
    && k + |digits| < |t|
    && (forall i | k <= i < k + |digits| :: IsDigit(t[i]))
    && ParseNat(t[k..k + |digits|]) == status
    && t[k + |digits|] == ' '
  }

  /** The status can be read back out of a fetch error's text: it is the
      digits right after the opening bracket. */
  lemma FetchErrorStatusReadable(url: string, resp: Response)
    requires !resp.ok
    ensures ShowsStatus(Settle(url, Responded(resp)).error.text, |FetchPrefix(url)| + 1, resp.status)
  {
    assert Settle(url, Responded(resp)).error.text == StatusText(url, resp);
    StatusTextShowsStatus(url, resp);
  }

  lemma StatusTextShowsStatus(url: string, resp: Response)
    ensures ShowsStatus(StatusText(url, resp), |FetchPrefix(url)| + 1, resp.status)
  {
    var p := FetchPrefix(url);
    var digits := NatToString(resp.status);
    var t := StatusText(url, resp);
    BracketedDigits(p, digits, resp.statusText, ServerMessage(resp.body));
    var k := |p| + 1;
    forall i | k <= i < k + |digits|
      ensures IsDigit(t[i])
    {
      assert t[i] == t[k..k + |digits|][i - k];
    }
    ParseNatToString(resp.status);
    assert ShowsStatus(t, k, resp.status);
  }

  /** Where the digits sit in a text laid out as `StatusText` lays it out. */
  lemma BracketedDigits(p: string, d: string, statusText: string, server: string)
    ensures var t := p + "[" + d + " " + statusText + "] " + server;
      |t| > |p| + 1 + |d| &&
      t[|p| + 1..|p| + 1 + |d|] == d && t[|p| + 1 + |d|] == ' '
  {
    var t := p + "[" + d + " " + statusText + "] " + server;
    var head := p + "[" + d + " ";
    assert t[..|head|] == head;
    assert head[|p| + 1..|p| + 1 + |d|] == d;
  }

  /** A server error and a transport error never look alike: only the first
      carries a status, and the two texts differ right after the prefix
      whenever the thrown message does not itself start with a bracket. */
  lemma ErrorKindsDistinguishable(url: string, resp: Response, thrown: string)
    requires !resp.ok
    requires thrown == "" || thrown[0] != '['
    ensures Status(Settle(url, Responded(resp)).error) == Some(resp.status)
    ensures Status(Settle(url, Threw(thrown)).error).None?
    ensures Settle(url, Responded(resp)).error.text != Settle(url, Threw(thrown)).error.text
  {
    var a := Settle(url, Responded(resp)).error.text;
    var b := Settle(url, Threw(thrown)).error.text;
    var k := |FetchPrefix(url)|;
    assert a[..k + 1] == FetchPrefix(url) + "[";
    assert a[k] == '[';
    if thrown != "" {
      assert b[k] == thrown[0];
    }
  }

  /** A 404 whose body is `{"error":{"message":"not found"}}`. */
  lemma NotFoundExample(url: string)
    ensures var e := Settle(url, Responded(Response(false, 404, "Not Found", Envelope(Some("not found"), None)))).error;
      e.FetchError? && e.status == 404 && IsSuffix("] not found", Message(e))
  {
    var resp := Response(false, 404, "Not Found", Envelope(Some("not found"), None));
    var e := Settle(url, Responded(resp)).error;
    var head := FetchPrefix(url) + "[" + NatToString(404) + " " + "Not Found";
    assert ServerMessage(resp.body) == "not found";
    assert e.text == StatusText(url, resp) == head + "] " + "not found";
    assert Message(e) == ErrorTag + e.text;
    assert Message(e) == (ErrorTag + head) + "] not found";
  }

  /** A 500 whose body does not parse: the text holds only status and status
      text. */
  lemma UnparsableBodyExample(url: string)
    ensures Settle(url, Responded(Response(false, 500, "Internal Server Error", Unparsable))).error.text ==
      FetchPrefix(url) + "[" + "500" + " " + "Internal Server Error" + "] "
  {
    var resp := Response(false, 500, "Internal Server Error", Unparsable);
    assert Settle(url, Responded(resp)).error.text == StatusText(url, resp);
    assert NatToString(500) == "500";
  }
}

=== FILE: utf8.dfy ===
/** The UTF-8 encoding a `Blob` applies to the string parts it is built from
    (section 3 of RFC 3629). */
module Utf8 {

  type byte = x: int | 0 <= x < 256

  const CarriageReturn: byte := 13

  /** The length of the sequence a lead byte announces (the table in
      section 3 of RFC 3629); 0 for a byte that cannot start one: a
      continuation byte, or 0xC0, 0xC1 and 0xF5 to 0xFF, which never
      appear in UTF-8. */
  function SequenceLength(lead: byte): nat {
    if lead < 0x80 then 1
    else if lead < 0xC2 then 0
    else if lead < 0xE0 then 2
    else if lead < 0xF0 then 3
    else if lead < 0xF5 then 4
    else 0
  }

  predicate IsContinuation(b: byte) {
    0x80 <= b < 0xC0
  }

  /** The scalar value a well-formed one- to four-byte sequence carries: the
      payload bits of the lead byte followed by six bits per continuation. */
  function DecodeChar(r: seq<byte>): int
    requires 1 <= |r| <= 4
  {
    var lead: int := r[0];
    if |r| == 1 then lead
    else if |r| == 2 then (lead - 0xC0) * 0x40 + Payload(r[1])
    else if |r| == 3 then (lead - 0xE0) * 0x1000 + Payload(r[1]) * 0x40 + Payload(r[2])
    else (lead - 0xF0) * 0x40000 + Payload(r[1]) * 0x1000 + Payload(r[2]) * 0x40 + Payload(r[3])
  }

  /** The six value bits of a continuation byte. */
  function Payload(b: byte): int {
    b - 0x80
  }

  /** The one to four bytes encoding the scalar value `c`: the shortest
      length for its range, a lead byte that announces that length,
      continuation bytes after it, and the value read back by `DecodeChar`. */
  function EncodeChar(c: char): (r: seq<byte>)
    ensures 1 <= |r| <= 4
    ensures (c as int) < 0x80 <==> |r| == 1
    ensures |r| == if (c as int) < 0x80 then 1 else if (c as int) < 0x800 then 2
      else if (c as int) < 0x10000 then 3 else 4
    ensures (c as int) < 0x80 ==> r == [c as int]
    ensures (c as int) >= 0x80 ==> forall i | 0 <= i < |r| :: r[i] >= 0x80
    ensures SequenceLength(r[0]) == |r|
    ensures forall i | 1 <= i < |r| :: IsContinuation(r[i])
    ensures DecodeChar(r) == c as int
  {
    var n := c as int;
    if n < 0x80 then [n]
    else if n < 0x800 then [0xC0 + n / 0x40, 0x80 + n % 0x40]
    else if n < 0x10000 then
      ThreeBytes(n);
      [0xE0 + n / 0x1000, 0x80 + (n / 0x40) % 0x40, 0x80 + n % 0x40]
    else
      FourBytes(n);
      [0xF0 + n / 0x40000, 0x80 + (n / 0x1000) % 0x40, 0x80 + (n / 0x40) % 0x40, 0x80 + n % 0x40]
  }

  lemma ThreeBytes(n: nat)
    ensures n / 0x1000 * 0x1000 + (n / 0x40) % 0x40 * 0x40 + n % 0x40 == n
  {
    var q := n / 0x40;
    assert n == q * 0x40 + n % 0x40;
    assert q == q / 0x40 * 0x40 + q % 0x40;
    assert q / 0x40 == n / 0x1000;
  }

  lemma FourBytes(n: nat)
    ensures n / 0x40000 * 0x40000 + (n / 0x1000) % 0x40 * 0x1000 + (n / 0x40) % 0x40 * 0x40 + n % 0x40 == n
  {
    var q := n / 0x1000;
    ThreeBytes(n);
    assert q == q / 0x40 * 0x40 + q % 0x40;
    assert q / 0x40 == n / 0x40000;
  }

  /** The UTF-8 encoding of `s`: one to four bytes per character, and a
      single character encodes as `EncodeChar` lays it out. */
  function Encode(s: string): (r: seq<byte>)
    ensures |s| <= |r| <= 4 * |s|
    ensures |s| == 1 ==> r == EncodeChar(s[0])
    decreases |s|
  {
    if |s| == 0 then [] else EncodeChar(s[0]) + Encode(s[1..])
  }

  /** Encoding distributes over concatenation. */
  lemma {:induction false} EncodeConcat(a: string, b: string)
    ensures Encode(a + b) == Encode(a) + Encode(b)
    decreases |a|
  {
    if |a| == 0 {
      assert a + b == b;
    } else {
      var e := EncodeChar(a[0]);
      assert (a + b)[0] == a[0];
      assert (a + b)[1..] == a[1..] + b;
      assert Encode(a + b) == e + Encode(a[1..] + b);
      assert Encode(a) == e + Encode(a[1..]);
      EncodeConcat(a[1..], b);
      assert e + (Encode(a[1..]) + Encode(b)) == (e + Encode(a[1..])) + Encode(b);
    }
  }

  /** Distinct strings encode to distinct bytes: each encoded character
      announces its own length in its lead byte and decodes back to the
      character. */
  lemma {:induction false} EncodeInjective(a: string, b: string)
    ensures Encode(a) == Encode(b) ==> a == b
    decreases |a|
  {
    if Encode(a) == Encode(b) && |a| > 0 {
      var ea, eb := EncodeChar(a[0]), EncodeChar(b[0]);
      assert |b| > 0;
      assert Encode(a) == ea + Encode(a[1..]);
      assert Encode(b) == eb + Encode(b[1..]);
      assert Encode(a)[0] == ea[0] && Encode(b)[0] == eb[0];
      assert ea == Encode(a)[..|ea|] == eb;
      assert Encode(a[1..]) == Encode(a)[|ea|..] == Encode(b[1..]);
      EncodeInjective(a[1..], b[1..]);
      assert a == [a[0]] + a[1..];
      assert b == [b[0]] + b[1..];
    }
  }

  /** A string without a carriage return encodes to bytes without 13: every
      byte of a multi-byte sequence is at least 0x80. */
  lemma {:induction false} EncodeWithoutCR(s: string)
    requires '\r' !in s
    ensures CarriageReturn !in Encode(s)
    decreases |s|
  {
    if |s| > 0 {
      assert s[0] != '\r';
      assert '\r' !in s[1..];
      EncodeWithoutCR(s[1..]);
    }
  }

  /** An ASCII string encodes to its character codes, one byte each. */
  lemma {:induction false} EncodeAscii(s: string)
    requires forall i | 0 <= i < |s| :: (s[i] as int) < 0x80
    ensures |Encode(s)| == |s|
    ensures forall i | 0 <= i < |s| :: Encode(s)[i] == s[i] as int
    decreases |s|
  {
    if |s| > 0 {
      EncodeAscii(s[1..]);
    }
  }

  /** The encoding has one byte per character exactly when every character
      is ASCII. */
  lemma {:induction false} EncodeOneBytePerChar(s: string)
    ensures |Encode(s)| == |s| <==> forall i | 0 <= i < |s| :: (s[i] as int) < 0x80
    decreases |s|
  {
    if |s| > 0 {
      EncodeOneBytePerChar(s[1..]);
      assert forall i | 1 <= i < |s| :: s[i] == s[1..][i - 1];
    }
  }

  /** A string that begins with a carriage return encodes to bytes that
      begin with 13. */
  lemma EncodeStartsWithCR(s: string)
    requires |s| > 0 && s[0] == '\r'
    ensures |Encode(s)| > 0 && Encode(s)[0] == CarriageReturn
  {
  }
}

=== FILE: wrappers.dfy ===
/** Option and Result types standing in for JavaScript's `undefined` and for
    thrown exceptions. */
module Wrappers {

  /** A value that may be absent (`undefined` in the source). */
  datatype Option<+T> = None | Some(value: T) {

    /** The value, or `default` when absent. */
    function GetOr(default: T): T {
      match this
      case Some(v) => v
      case None => default
    }
  }

  /** The outcome of an operation that may throw: the returned value or the
      thrown error. */
  datatype Result<+R, +E> = Success(value: R) | Failure(error: E) {

    predicate IsFailure() {
      Failure?
    }

    function PropagateFailure<U>(): Result<U, E>
      requires Failure?
    {
      Failure(error)
    }

    function Extract(): R
      requires Success?
    {
      value
    }
  }
}
